=== FILE: README.md ===
# Todo API: a verified model of the request core

This project models the PHP script `backend/api/index.php`. The script is the
whole back end of a todo application. For each HTTP request it:

- answers CORS preflight;
- normalises `APP_ENV` and reads the signing secret;
- decides which schema statements to issue;
- routes the request by the endpoint name in its URI;
- runs one of seven handlers against two tables, `users` and `vue_todos`:
  `register`, `login`, `me`, and `GET`, `POST`, `PUT`, `DELETE` on todos.

The protected handlers first authenticate the caller with a bearer token.
The token is an HS256 JSON Web Token the script signs and checks itself.

The model is in Dafny, one module per part of the script:

| file | module | what it holds |
|---|---|---|
| `php.dfy` | `Php` | PHP values and the semantics the script relies on: `(bool)`, `empty`, `isset`, `??`, `?:`, the string PDO binds, `str_replace`, `explode`, `strpos` and `trim` |
| `oracles.dfy` | `Oracles` | base64, JSON, HMAC-SHA256 and password hashing as uninterpreted function values; `Lawful` states the assumptions made about them |
| `jwt.dfy` | `Jwt` | `generateJWT`, `validateJWT`, the URL-safe substitution and its inverse |
| `auth.dfy` | `Auth` | the bearer middleware `authenticate()` |
| `config.dfy` | `Config` | `APP_ENV`, `JWT_SECRET`, the schema-initialisation plan and its effect on the catalog |
| `routing.dfy` | `Routing` | endpoint extraction by the `/api/` pattern; the decision table from method and endpoint to handler |
| `tables.dfy` | `Tables` | the rows of both tables and the meaning of each SQL statement as a function on sequences of rows |
| `store.dfy` | `Store` | class `Database`, whose methods are the handlers that write; the read-only handlers as functions; `Database.Handle` for one whole request |

The script's library calls are `base64_encode`/`base64_decode`, `json_encode`/`json_decode`, `hash_hmac`, `password_hash` and `password_verify`. They are fields of the datatype `Oracles.Primitives`, so the model never fixes their implementation. Every property that depends on them requires `Oracles.Lawful(p)`. `Lawful` holds four assumptions:

- base64 output uses only the base64 alphabet;
- decoding inverts encoding, even with the padding removed;
- JSON decoding inverts encoding on flat objects;
- a password verifies against its own hash.

The following are parameters carried in `Store.Context`:

- the clock `time()` reads;
- the database clock that stamps `created_at`;
- the UUID the next `INSERT` generates;
- the salt `password_hash` draws;
- the environment variables.

Where the script's behaviour is surprising, the model follows the code:

- A token whose `exp` equals the current time is still accepted.
- `authenticate()` removes every `Bearer ` in the header, not only a leading one.
- `APP_ENV` is trimmed only when it contains `#`.
- A known endpoint with the wrong method answers 404. Only the empty endpoint answers 405.
- `OPTIONS` is answered before the URI is examined.
- The todo handlers authenticate before they look at the body.
- Once the flag file is missing, the schema block drops `vue_todos` even when the table exists.
- An array `password` makes `password_hash` or `password_verify` throw a `TypeError`. The `catch` blocks only catch `PDOException`, and errors are displayed (line 8). The answer is therefore PHP's error report with status 200 (`Store.Body.Fatal`).
- A token whose payload decodes to something other than an object passes `authenticate()`. The handler then stops with an `Error` where it binds `$payload->user_id` by reference: again PHP's error report with status 200. A `user_id` claim that is itself an object stops the handler the same way, because PDO cannot convert it to a string (`Store.Bindable`).

## Model

| member | source | states |
|---|---|---|
| Php.EmptyStrings | backend/api/index.php:331 | `empty` holds for a string exactly when it is `""` or `"0"` |
| Php.Truthy | backend/api/index.php:539 | `(bool)` is false exactly for `null`, `false`, `0`, `""`, `"0"` and the empty array |
| Php.Empty | backend/api/index.php:331 | `empty` holds exactly for those same six values |
| Php.IssetField | backend/api/index.php:539 | `isset($input[key])` holds exactly when the key is present with a value other than `null` |
| Php.Prop | backend/api/index.php:155 | `$o->name` reads a non-null value exactly when the value is an object with that property set to something other than `null`, and then reads that property |
| Php.BodyString | backend/api/index.php:339 | the string PDO binds for a non-null body field is a string field itself, and it is `""` exactly for `false` and `""` |
| Php.Explode | backend/api/index.php:132 | `explode('.', …)` yields one more piece than there are dots, no piece contains a dot, and joining the pieces with `.` gives the string back |
| Php.ExplodeThree | backend/api/index.php:132-135 | three dot-free segments joined by dots split back into exactly those three |
| Php.StrReplaceOneChar | backend/api/index.php:119 | `str_replace` with a one-character search is the character-by-character substitution |
| Php.StrReplace | backend/api/index.php:173 | `str_replace` leaves the subject unchanged for an empty search string and when the replacement equals the search string; a replacement of the same length keeps the length |
| Php.StrReplaceLeading | backend/api/index.php:173 | an occurrence at the very start of the subject is replaced |
| Php.NoMatchBefore | backend/api/index.php:173 | no occurrence starts inside a text lacking the search string's last character, when that character is unique to the end of the search string |
| Php.StrReplacePassesOver | backend/api/index.php:173 | under the same condition the scan copies such a text unchanged and replaces the occurrence that follows it |
| Php.RemoveBoth | backend/api/index.php:173 | removing such a search string removes both its occurrences around two texts that lack its last character |
| Php.StrReplaceIsOnePass | backend/api/index.php:173 | the scan is a single pass: removing `Bearer ` from `BeBearer arer ` leaves `Bearer ` |
| Php.StrReplaceAbsent | backend/api/index.php:173 | `str_replace` leaves a string unchanged when the search string contains a character the string lacks |
| Php.IndexOf | backend/api/index.php:39-40 | `strpos` finds the first occurrence of the character |
| Php.Trim | backend/api/index.php:40 | `trim` keeps an infix that neither starts nor ends with a whitespace character, and cuts off only whitespace characters |
| Jwt.UrlEncodeIsUrlSafe | backend/api/index.php:119-123 | the URL-safe substitution of base64 text contains no `+`, `/`, `=` or `.` |
| Jwt.UrlRoundTrip | backend/api/index.php:137-138 | undoing the substitution (line 137) after applying it (line 119) gives back the base64 text without padding |
| Jwt.SegmentRoundTrip | backend/api/index.php:119-138 | under the base64 assumptions, decoding an encoded segment gives back the data |
| Jwt.GenerateJWT | backend/api/index.php:101-126 | under the library assumptions a generated token splits on `.` into exactly three URL-safe segments: the encoded header, the encoded claims and the signature over the first two; it contains no space, so no `Bearer ` can occur inside it |
| Jwt.EncodedIsUrlSafe | backend/api/index.php:119-123 | under the base64 assumption an encoded segment uses only the URL-safe alphabet |
| Jwt.Signature | backend/api/index.php:122-123 | under the base64 assumption the signature segment is URL-safe and holds no `.` |
| Jwt.JoinedSegments | backend/api/index.php:125 | three URL-safe segments joined by dots split back into exactly those three and contain no space |
| Jwt.GenerateThenValidate | backend/api/index.php:101-160 | a token issued at `t` is accepted at every `now <= t + 86400` with the same secret; the payload returned is its claims, with the issued `user_id` and `email`, and `exp == t + 86400` |
| Jwt.GeneratedTokenExpires | backend/api/index.php:155-157 | the same token is rejected at every `now > t + 86400` |
| Jwt.GeneratedSignatureMatches | backend/api/index.php:142-148 | the signature recomputed over the re-encoded decoded segments equals the one issued |
| Jwt.LessThan | backend/api/index.php:155 | `$payload->exp < time()` under PHP 8 comparison: an integer compares numerically; `null` and booleans compare as booleans; a string or an array is never less; an object compares as 1 |
| Jwt.Expired | backend/api/index.php:155 | only an object with a non-null `exp` property can be expired; with an integer `exp` it is expired exactly when `exp < now` |
| Jwt.ClaimsExpireAfterLifetime | backend/api/index.php:105-113 | the claims of a token issued at `t` count as expired exactly when `now > t + 86400` |
| Jwt.ValidateJWT | backend/api/index.php:129-160 | the result is `false` or the JSON-decoded second segment, and it is `false` whenever the token does not have three parts |
| Jwt.ValidateJWTCases | backend/api/index.php:132-159 | rejection for a part count other than 3, for a third part other than the recomputed signature, and for an integer `exp` below `now`; acceptance with the decoded payload for `exp >= now` and for a missing `exp` |
| Auth.Authenticate | backend/api/index.php:163-183 | a missing header gives the first 401; otherwise every `Bearer ` is removed, a falsy validation result gives the second 401, and anything else is returned unchanged as the payload |
| Auth.StripBearer | backend/api/index.php:172-173 | removing every `Bearer ` from `Bearer <token>` leaves the token when it has no space |
| Auth.StripEveryBearer | backend/api/index.php:172-173 | every `Bearer ` is removed, not only the leading one: `Bearer a` followed by `Bearer b` leaves `a` followed by `b` for space-free `a` and `b` |
| Auth.BearerTokenAuthenticates | backend/api/index.php:163-183 | `Bearer <token>` with a token issued within the last 86400 seconds authenticates, with the issued claims as payload |
| Config.EnvOr | backend/api/index.php:42 | `?:` keeps a set value other than `""` and `"0"`, and gives the default for an unset variable, `""` or `"0"` |
| Config.Uncommented | backend/api/index.php:39-41 | a value without `#` is kept; a value with `#` becomes the trimmed part before the first `#`; the result never holds `#` |
| Config.TrimKeepsAbsent | backend/api/index.php:40 | `trim` adds no character that was not in its argument |
| Config.AppEnv | backend/api/index.php:37-42 | the environment name is truthy and holds no `#`; an unset variable gives `development`; a value without `#` is kept untrimmed when truthy and gives `development` when falsy; a value with `#` gives the trimmed part before the first `#` when that is truthy, `development` otherwise |
| Config.AppEnvDropsComment | backend/api/index.php:37-42 | a name followed by ` #` and a comment normalises to the name |
| Config.JwtSecret | backend/api/index.php:98 | the secret is the variable when it is set and truthy, `your_secret_key` when it is unset, `""` or `"0"`, and never empty |
| Config.SchemaPlan | backend/api/index.php:186-307 | `vue_todos` is dropped, recreated and the flag written exactly on a first run; it is created without a drop exactly when it is absent on a later run; otherwise it is untouched; `users` is created only when absent or on a first run |
| Config.Step | backend/api/index.php:205-304 | one statement fails only when it is `CREATE TABLE vue_todos` on an existing table; otherwise it sets the flag, `users` or `vue_todos` as its kind says, and only `DROP` loses todo rows |
| Config.Run | backend/api/index.php:186-310 | a run fails only if it holds `CREATE TABLE vue_todos`; a successful run leaves the flag and `users` set exactly when they were set before or a statement sets them, and keeps the todo rows exactly when it holds no `DROP` |
| Config.Initialize | backend/api/index.php:186-310 | a successful start-up leaves the flag and `users` in place and keeps the todo rows exactly when the flag file was present |
| Config.InitializeSettles | backend/api/index.php:186-310 | the plan never makes its own statements fail; it leaves both tables and the flag in place; it discards existing todo rows exactly when the flag was missing; a second run issues no statement and changes nothing |
| Routing.SegmentRun | backend/api/index.php:316 | the greedy `[^\/\?]+` run is a prefix of segment characters followed by a `/`, a `?` or the end |
| Routing.EndpointFrom | backend/api/index.php:316-318 | scanning from a position finds the leftmost match at or after it, or `''` when there is none |
| Routing.Endpoint | backend/api/index.php:313-318 | the endpoint is `''` exactly when `/api/` followed by a segment character occurs nowhere; otherwise it is the whole segment after the leftmost such `/api/` |
| Routing.EndpointOfApiPath | backend/api/index.php:316-318 | `/api/<name>` followed by `/`, `?` or nothing routes to `<name>` |
| Routing.Dispatch | backend/api/index.php:324-629 | `register`/`login` only on `POST`, `me` only on `GET`; the todo handlers exactly for the empty endpoint with `GET`, `POST`, `PUT` or `DELETE`; 405 exactly for the empty endpoint with any other method; 404 only for a non-empty endpoint |
| Routing.RouteRequest | backend/api/index.php:31-629 | the preflight answer is given exactly for `OPTIONS`; 405 only for the empty endpoint, 404 only for a non-empty one |
| Routing.RoutingTable | backend/api/index.php:324-629 | `OPTIONS` is answered first for every URI; `register`/`login` need `POST` and `me` needs `GET`, else 404; `''` takes `GET`/`POST`/`PUT`/`DELETE` and is the only source of 405; every other endpoint is 404 |
| Tables.FindByEmail | backend/api/index.php:397-407 | the row found has the email, and nothing is found exactly when no row has it |
| Tables.FindByEmailUnique | backend/api/index.php:366-369 | with unique emails, re-selecting by a user's email finds that user |
| Tables.FindById | backend/api/index.php:441-445 | the row found has the id, and nothing is found exactly when no row has it; a `NULL` id finds nothing |
| Tables.Owned | backend/api/index.php:469 | `WHERE user_id = :user_id` keeps exactly the caller's rows, each as often as it is stored |
| Tables.InsertByDate | backend/api/index.php:469 | inserting into a newest-first list keeps it newest first and adds exactly the one row |
| Tables.SortNewestFirst | backend/api/index.php:469 | `ORDER BY created_at DESC` yields a permutation of the rows, newest first |
| Tables.Listing | backend/api/index.php:469-472 | the list query yields exactly the caller's rows, each as often as stored, newest first |
| Tables.Newest | backend/api/index.php:512-521 | `LIMIT 1` yields a row of the caller no other row of the caller is newer than, or nothing when the caller has no row |
| Tables.NewestIsInserted | backend/api/index.php:499-521 | the re-selected row is the inserted one when its `created_at` is later than every earlier row of the caller |
| Tables.SetCompleted | backend/api/index.php:566-570 | `UPDATE … WHERE id AND user_id` sets the flag on the targeted rows and leaves every other row and column as it was |
| Tables.SetCompletedOneRow | backend/api/index.php:566-570 | with unique ids the update changes exactly the one probed row, and only its `completed` column |
| Tables.RemoveTargets | backend/api/index.php:608-611 | `DELETE … WHERE id AND user_id` keeps exactly the rows not targeted and keeps ids unique |
| Tables.RemoveTargetsOneRow | backend/api/index.php:608-611 | with unique ids the delete removes exactly the one probed row and keeps the others in order |
| Tables.ForeignRowIsInvisible | backend/api/index.php:554-563 | a row owned by someone else is invisible to the caller's ownership probe and absent from the caller's list |
| Store.Input | backend/api/index.php:327-329 | a body field is its value when set and `''` otherwise, and never an object |
| Store.CallerId | backend/api/index.php:442 | for a bindable payload the bound `user_id` is `NULL` exactly when the claim is missing or `null`; a string claim is bound as it is; the empty string is bound exactly for `false` and `""` |
| Store.Production | backend/api/index.php:351-357 | the PostgreSQL statements are used exactly when `APP_ENV`, cut at its first `#` and then trimmed when it holds one, is `production` |
| Store.InsertableKeepsConstraints | backend/api/index.php:499-507 | the todo `INSERT` succeeds exactly when the new row keeps the primary key unique and its owner registered, and a `NULL` owner only in the PostgreSQL dialect |
| Store.LoginResponse | backend/api/index.php:384-435 | empty email or password gives 400, and that is the only 400; an unknown email and, for a known email, a password that does not verify give the same 401; an array password for a known email gives PHP's error report with status 200; a session answer returns a stored user with that email whose hash verifies, together with a token for that user; no other answer occurs |
| Store.LoginSucceeds | backend/api/index.php:384-435 | a stored user who presents the password their hash was made from logs in as themselves |
| Store.MeResponse | backend/api/index.php:436-459 | a non-object payload gives PHP's error report with status 200; otherwise 200 with the user exactly when a row has the payload's `user_id`, and 404 exactly when none has, so a 200 is a profile or the error report |
| Store.SessionTokenIdentifies | backend/api/index.php:436-459 | a token issued for a stored user authenticates within its lifetime, and `me` then answers with that user |
| Store.RegisterThenLogin | backend/api/index.php:324-435 | after a successful registration, a login with the same body answers 200 with the same user and a fresh token for it |
| Store.CreatedTodoIsListed | backend/api/index.php:464-529 | a todo the `POST` handler inserts for a caller appears in that caller's `GET` listing afterwards |
| Store.ListResponse | backend/api/index.php:464-480 | a non-object payload gives PHP's error report with status 200; otherwise 200 with exactly the caller's rows, each as often as stored, newest first |
| Store.Database.constructor | backend/api/index.php:228-275 | both tables start empty and satisfy the table constraints |
| Store.Database.Register | backend/api/index.php:324-383 | `RegisterSpec`: empty email or password gives 400; a known email gives 400; an array password gives PHP's error report with status 200; an id collision gives 500; in each of these cases `users` is unchanged; otherwise exactly one row is appended, with the generated id, the email, the password's hash and the name, and the answer is that row without the hash plus a token for it; the constraints are kept and `vue_todos` is untouched |
| Store.Database.CreateTodo | backend/api/index.php:483-529 | `CreateTodoSpec`: empty text gives 400; then a non-object payload gives PHP's error report with status 200; a failed insert gives 500; these leave the table unchanged; otherwise exactly one row is appended with the caller as owner, `completed` false and the database time; the answer is the caller's newest row, which is the new row when its time is later than the caller's other rows; a `NULL` caller gets `false` |
| Store.Database.UpdateTodo | backend/api/index.php:532-578 | `UpdateTodoSpec`: empty id gives 400; a missing `completed` gives 400; then a non-object payload gives PHP's error report with status 200; no row with that id for the caller gives 404; in each of these cases the table is unchanged; otherwise exactly the probed row gets the new flag and nothing else changes |
| Store.Database.DeleteTodo | backend/api/index.php:581-619 | `DeleteTodoSpec`: empty id gives 400; then a non-object payload gives PHP's error report with status 200; no row with that id for the caller gives 404; in each of these cases the table is unchanged; otherwise exactly the probed row is removed and the others keep their order |
| Store.Database.Handle | backend/api/index.php:313-629 | preflight 200, 405 and 404 change nothing; `login` answers as `LoginResponse` and changes nothing; `register` satisfies `RegisterSpec`; the protected routes answer 401 on failed authentication before any validation and change nothing; once authenticated, `me` and `GET` answer as `MeResponse` and `ListResponse` and change nothing, and `POST`, `PUT` and `DELETE` satisfy `CreateTodoSpec`, `UpdateTodoSpec` and `DeleteTodoSpec` for the decoded payload; the table constraints are kept |

## Left out

- The PDO connection, the DSN built from `SUPABASE_URL`, and its regular expression (lines 46-95) are connection I/O. The model has one database whose dialect follows `APP_ENV`.
- `Store.Production`: the SQL dialect is chosen by `APP_ENV` alone. The connection is PostgreSQL only when `SUPABASE_URL` is also set. The model assumes the two agree.
- The schema block (lines 186-310) is modelled as a plan and its effect on a catalog of flags (`Config.Catalog`). `Database.Handle` assumes the tables exist and the flag file is present. When the flag file is missing, for example after `/tmp` is cleared, the script empties `vue_todos` before it routes the request (lines 189 and 240-246). `Config.Initialize` models that step, but `Handle` does not run it. A `PDOException` in that block is only logged.
- The flag file `/tmp/db_initialized.flag` is a boolean. Writing the date into it is the `WriteFlag` action.
- SQL text and the dialect differences (`gen_random_uuid()` vs `UUID()`, `to_regclass` vs `SHOW TABLES`) are not modelled. Only the resulting table semantics are.
- PostgreSQL's `UUID` column type is not modelled. There, an id that is not a UUID raises an error, so the answer is 500 where the model answers 404. The same holds for the caller id: a claim that is not a UUID, such as `false` bound as `""`, makes the `GET` query fail with 500 where `Store.ListResponse` answers 200 with no rows, and makes `me` fail with 500 where `Store.MeResponse` answers 404. An id written in another spelling of the same UUID (upper case, braces, no hyphens) matches the row there, so `PUT` and `DELETE` answer 200 and change it where `Store.UpdateTodoSpec` and `Store.DeleteTodoSpec` answer 404.
- MySQL's `utf8mb4_unicode_ci` collation (lines 224, 271 and 303) is not modelled. It ignores case and trailing spaces in `email`, `id` and `user_id`, so an upper-cased or space-padded id matches in the `PUT` and `DELETE` probes and updates. The model compares all of them exactly.
- `Store.RegisterSpec`: MySQL's `VARCHAR(255)` columns reject a longer email or name in strict mode, which gives 500. The model appends the row whatever the length.
- `Store.CallerId`: an array claim is bound as `"Array"`, and the warning PHP prints for that conversion is not part of the modelled answer. A floating-point claim is not modelled.
- The text of PHP's error report for an uncaught `TypeError` or `Error` is not modelled. The answer is the single value `Store.Body.Fatal` with status 200.
- `Oracles.Lawful`: the JSON round trip is assumed only for flat objects whose property names do not start with a NUL character and whose integers fit PHP's 64-bit `int`. `json_decode` into objects rejects such names, and a larger integer comes back as a float.
- `Jwt.GenerateThenValidate`: a token is only shown to round-trip when `iat + 86400` fits PHP's 64-bit `int` (`Jwt.Issuable`). Beyond that `exp` becomes a float, and floats are not modelled.
- Headers, CORS, `http_response_code`, `echo`/`exit`, logging and the `mb_*` settings are output I/O. Responses are values of `Store.Response`.
- `Store.LoginResponse`, `Store.RegisterSpec`, `Store.MeResponse`, `Store.UpdateTodoSpec`, `Store.DeleteTodoSpec` and `Auth.Authenticate`: their statuses assume that output is buffered. Errors are displayed (line 8), so without output buffering a warning or notice printed before `http_response_code` sends the headers and the status stays 200. Such warnings come from an array `email` bound at lines 339 and 398, an array `id` at lines 555 and 597, an array `user_id` claim at lines 442, 556 and 598, and an object `exp` compared at line 155. The model answers 400, 401 or 404 there.
- `getallheaders`, `$_SERVER` and `php://input` are input I/O. Requests arrive already decoded as `Store.Request`.
- Floating-point JSON numbers are not modelled.
- A body that is not a JSON object behaves as an empty object. This matches the script, where every field then defaults to `''`.
- `Jwt.LessThan`: a string `exp` is treated as not expired. PHP's string-to-number comparison is not modelled.
- Two concurrent `POST`s racing between insert and re-select are not modelled. The model is sequential.
- `Tables.SortNewestFirst`: rows with equal `created_at` come back in an order SQL leaves unspecified. The model fixes one order.
- `Store.Database.CreateTodo`: when the timestamp ties with an earlier row of the caller, the re-selected row may not be the new one. The contract then promises only a newest row of the caller.
- HMAC-SHA256, base64, JSON and password hashing are uninterpreted. Only the assumptions in `Oracles.Lawful` are made about them.

=== FILE: auth.dfy ===
/**
  The bearer-token middleware `authenticate()`: it reads the
  `Authorization` header, strips `Bearer ` from it and validates what is
  left as a token.
 */
module Auth {
  import opened Php
  import opened Oracles
  import opened Jwt

  /** The two 401 answers (missing header, invalid token) and success with the
      decoded payload. */
  datatype AuthOutcome = MissingHeader | InvalidToken | Authorized(payload: PhpValue)

  /** `authenticate()` with the `Authorization` header as `authorization`
      (`None` when the header is absent). `str_replace` removes every
      `Bearer ` in the header, not only a leading one, and the token is
      refused when the validation result is falsy, which includes a payload
      that decodes to a falsy JSON value. */
  function Authenticate(p: Primitives, secret: string, now: int, authorization: Option<string>): (r: AuthOutcome)
    ensures authorization.None? <==> r == MissingHeader
    ensures r.Authorized? ==> Truthy(r.payload)
    ensures r.Authorized? ==>
              r.payload == ValidateJWT(p, secret, StrReplace(authorization.value, "Bearer ", ""), now)
    ensures authorization.Some? ==>
              (r == InvalidToken <==> !Truthy(ValidateJWT(p, secret, StrReplace(authorization.value, "Bearer ", ""), now)))
  {
    match authorization
    case None => MissingHeader
    case Some(header) =>
      var payload := ValidateJWT(p, secret, StrReplace(header, "Bearer ", ""), now);
      if !Truthy(payload) then InvalidToken else Authorized(payload)
  }

  /** A header `Bearer <token>` carrying a token issued at `issuedAt`
      authenticates, at every `now` up to `issuedAt + 86400`, as the user the
      token was issued for. */
  lemma BearerTokenAuthenticates(p: Primitives, secret: string, issuedAt: int, userId: string, email: string, now: int)
    requires Lawful(p) && Issuable(issuedAt)
    requires now <= issuedAt + TokenLifetime
    ensures var token := GenerateJWT(p, secret, issuedAt, userId, email);
      var r := Authenticate(p, secret, now, Some("Bearer " + token));
      && r == Authorized(Claims(issuedAt, userId, email))
      && Prop(r.payload, "user_id") == Str(userId)
  {
    var token := GenerateJWT(p, secret, issuedAt, userId, email);
    StripBearer(token);
    GenerateThenValidate(p, secret, issuedAt, userId, email, now);
  }

  /** Every `Bearer ` goes, not only the leading one: a header holding two
      of them before space-free texts `a` and `b` leaves `a + b`. */
  lemma StripEveryBearer(a: string, b: string)
    requires ' ' !in a && ' ' !in b
    ensures StrReplace("Bearer " + a + "Bearer " + b, "Bearer ", "") == a + b
  {
    var search := "Bearer ";
    assert search[6] == ' ' && ' ' !in search[..6];
    RemoveBoth(search, a, b);
  }

  /** `str_replace('Bearer ', '', 'Bearer ' . $token)` is `$token` when the
      token has no space. */
  lemma StripBearer(token: string)
    requires ' ' !in token
    ensures StrReplace("Bearer " + token, "Bearer ", "") == token
  {
    var header := "Bearer " + token;
    assert header[..|"Bearer "|] == "Bearer " && header[|"Bearer "|..] == token;
    StrReplaceAbsent(token, "Bearer ", "", ' ');
  }
}

=== FILE: config.dfy ===
/**
  Start-up configuration read on every request: the `APP_ENV` value, the
  signing secret, and the decision which schema statements to issue.
 */
module Config {
  import opened Php

  /** `getenv($name) ?: $default`: an unset variable (`getenv` returns false)
      and a falsy value (`""`, `"0"`) both give the default. */
  function EnvOr(raw: Option<string>, default: string): (r: string)
    ensures raw.Some? && raw.value != "" && raw.value != "0" ==> r == raw.value
    ensures raw.None? || raw.value == "" || raw.value == "0" ==> r == default
  {
    if raw.Some? && Truthy(Str(raw.value)) then raw.value else default
  }

  /** The part of an environment value before its first `#`, trimmed; a
      value without `#` is kept as it is. */
  function Uncommented(s: string): (v: string)
    ensures '#' !in v
    ensures '#' !in s ==> v == s
    ensures '#' in s ==> v == Trim(s[..IndexOf(s, '#')])
  {
    if '#' in s then
      var head := s[..IndexOf(s, '#')];
      TrimKeepsAbsent(head, '#');
      Trim(head)
    else s
  }

  /** The environment name of lines 37-42: when the value holds a `#`, the
      part before the first `#` is kept and trimmed (a value without `#` is
      not trimmed); a falsy result then falls back to `development`. */
  function AppEnv(raw: Option<string>): (env: string)
    ensures Truthy(Str(env))
    ensures '#' !in env
    ensures raw.None? ==> env == "development"
    ensures raw.Some? && '#' !in raw.value && Truthy(Str(raw.value)) ==> env == raw.value
    ensures raw.Some? && '#' !in raw.value && !Truthy(Str(raw.value)) ==> env == "development"
    ensures raw.Some? && '#' in raw.value ==>
              var cut := Trim(raw.value[..IndexOf(raw.value, '#')]);
              && (Truthy(Str(cut)) ==> env == cut)
              && (!Truthy(Str(cut)) ==> env == "development")
  {
    assert '#' !in "development" && Truthy(Str("development"));
    match raw
    case None => "development"
    case Some(s) => EnvOr(Some(Uncommented(s)), "development")
  }

  /** `trim` only removes characters, so it adds none. */
  lemma TrimKeepsAbsent(s: string, c: char)
    requires c !in s
    ensures c !in Trim(s)
  {
  }

  /** A value whose environment name is followed by ` #` and a comment names
      that environment, provided the name is truthy, has no `#` and neither
      starts nor ends with a character `trim` strips. */
  lemma AppEnvDropsComment(name: string, comment: string)
    requires Truthy(Str(name)) && '#' !in name
    requires !IsTrimChar(name[0]) && !IsTrimChar(name[|name| - 1])
    ensures AppEnv(Some(name + " #" + comment)) == name
  {
    var s := name + " #" + comment;
    var n := |name|;
    assert s[..n + 1] == name + " ";
    IndexOfIs(s, '#', n + 1);
    var head := name + " ";
    var t := Trim(head);
    var j: nat :| TrimmedInfixAt(head, t, j);
    assert !IsTrimChar(head[0]) && !IsTrimChar(head[n - 1]);
    assert j == 0 && |t| == n;
    assert t == name;
  }

  /** The signing secret: `getenv('JWT_SECRET') ?: 'your_secret_key'`. */
  function JwtSecret(raw: Option<string>): (secret: string)
    ensures secret != "" && secret != "0"
    ensures raw.Some? && raw.value != "" && raw.value != "0" ==> secret == raw.value
    ensures !(raw.Some? && raw.value != "" && raw.value != "0") ==> secret == "your_secret_key"
  {
    EnvOr(raw, "your_secret_key")
  }

  /** The schema statements the start-up code can issue. */
  datatype SchemaAction =
    | CreateUsersIfNotExists
    | DropTodos
    | CreateTodos
    | WriteFlag

  /** Lines 186-307, with the flag file's absence as `isFirstRun` and the two
      table probes as `usersExists` and `todoExists`. */
  function SchemaPlan(isFirstRun: bool, usersExists: bool, todoExists: bool): (actions: seq<SchemaAction>)
    ensures CreateUsersIfNotExists in actions <==> !usersExists || isFirstRun
    ensures DropTodos in actions <==> isFirstRun
    ensures WriteFlag in actions <==> isFirstRun
    ensures CreateTodos in actions <==> isFirstRun || !todoExists
    ensures CreateTodos in actions && DropTodos !in actions <==> !isFirstRun && !todoExists
    ensures !isFirstRun && todoExists ==> forall a :: a in actions ==> a == CreateUsersIfNotExists
  {
    var users := if !usersExists || isFirstRun then [CreateUsersIfNotExists] else [];
    var todos :=
      if (isFirstRun || !todoExists) && isFirstRun then [DropTodos, CreateTodos, WriteFlag]
      else if !todoExists then [CreateTodos]
      else [];
    users + todos
  }

  /** What the start-up code can observe and change: the flag file, the two
      tables, and whether the todo rows that existed before have survived. */
  datatype Catalog = Catalog(flag: bool, users: bool, todos: bool, todoRowsKept: bool)

  /** One statement's effect; `CREATE TABLE vue_todos` (without `IF NOT
      EXISTS`) fails when the table exists, which ends the whole block. */
  function Step(c: Catalog, a: SchemaAction): (r: Option<Catalog>)
    ensures r.None? <==> a == CreateTodos && c.todos
    ensures r.Some? ==>
      && (r.value.flag <==> c.flag || a == WriteFlag)
      && (r.value.users <==> c.users || a == CreateUsersIfNotExists)
      && (r.value.todos <==> a == CreateTodos || (c.todos && a != DropTodos))
      && (r.value.todoRowsKept <==> c.todoRowsKept && a != DropTodos)
  {
    match a
    case CreateUsersIfNotExists => Some(c.(users := true))
    case DropTodos => Some(c.(todos := false, todoRowsKept := false))
    case CreateTodos => if c.todos then None else Some(c.(todos := true))
    case WriteFlag => Some(c.(flag := true))
  }

  /** The statements in order; the first failure ends the block. Nothing
      but `DROP` loses todo rows and nothing removes the flag or `users`. */
  function Run(c: Catalog, actions: seq<SchemaAction>): (r: Option<Catalog>)
    ensures r.None? ==> CreateTodos in actions
    ensures r.Some? ==>
      && (r.value.flag <==> c.flag || WriteFlag in actions)
      && (r.value.users <==> c.users || CreateUsersIfNotExists in actions)
      && (r.value.todoRowsKept <==> c.todoRowsKept && DropTodos !in actions)
    decreases |actions|
  {
    if actions == [] then Some(c)
    else match Step(c, actions[0])
      case None => None
      case Some(c') => Run(c', actions[1..])
  }

  /** The start-up block run against a catalog. */
  function Initialize(c: Catalog): (r: Option<Catalog>)
    ensures r.Some? ==> r.value.flag && r.value.users
    ensures r.Some? ==> (r.value.todoRowsKept <==> c.todoRowsKept && c.flag)
  {
    Run(c, SchemaPlan(!c.flag, c.users, c.todos))
  }

  /** The start-up block never fails on its own statements, always leaves both
      tables in place and the flag written, discards the existing todo rows
      exactly when the flag file was missing, and a second run issues no
      statement at all. */
  lemma InitializeSettles(c: Catalog)
    requires c.todoRowsKept
    ensures Initialize(c).Some?
    ensures var c' := Initialize(c).value;
      && c'.flag && c'.users && c'.todos
      && (c'.todoRowsKept <==> c.flag)
      && SchemaPlan(!c'.flag, c'.users, c'.todos) == []
      && Initialize(c') == Some(c')
  {
    var actions := SchemaPlan(!c.flag, c.users, c.todos);
    var c1 := c.(users := true);
    if !c.flag {
      assert actions == [CreateUsersIfNotExists, DropTodos, CreateTodos, WriteFlag];
      var c2 := c1.(todos := false, todoRowsKept := false);
      var c3 := c2.(todos := true);
      assert Run(c3, [WriteFlag]) == Some(c3.(flag := true));
      assert Run(c2, [CreateTodos, WriteFlag]) == Run(c3, [WriteFlag]);
      assert Run(c1, [DropTodos, CreateTodos, WriteFlag]) == Run(c2, [CreateTodos, WriteFlag]);
      assert Run(c, actions) == Run(c1, [DropTodos, CreateTodos, WriteFlag]);
    } else if !c.todos {
      var c0 := if c.users then c else c1;
      assert Run(c0, [CreateTodos]) == Some(c0.(todos := true));
      if !c.users {
        assert actions == [CreateUsersIfNotExists, CreateTodos];
        assert Run(c, actions) == Run(c1, [CreateTodos]);
      } else {
        assert actions == [CreateTodos];
      }
    } else if !c.users {
      assert actions == [CreateUsersIfNotExists];
      assert Run(c, actions) == Run(c1, []);
    } else {
      assert actions == [];
    }
    var c' := Initialize(c).value;
    assert Run(c', []) == Some(c');
  }
}

=== FILE: jwt.dfy ===
/**
  The token codec: `generateJWT` and `validateJWT`. A token is a JSON Web
  Token (RFC 7519) in the JWS compact serialisation (section 7.1 of RFC
  7515) signed with HS256 (section 3.2 of RFC 7518), each segment in the
  URL-safe base64 alphabet without padding (section 5 of RFC 4648).
  The signing secret and the current time are parameters.
 */
module Jwt {
  import opened Php
  import opened Oracles

  /** Lifetime of an issued token, in seconds (24 hours). */
  const TokenLifetime: int := 86400

  /** The characters of the URL-safe base64 alphabet, without padding. */
  predicate IsUrlSafeChar(c: char) {
    ('A' <= c <= 'Z') || ('a' <= c <= 'z') || ('0' <= c <= '9') || c == '-' || c == '_'
  }

  predicate IsUrlSafeText(s: string) {
    forall i :: 0 <= i < |s| ==> IsUrlSafeChar(s[i])
  }

  /** `str_replace(['+', '/', '='], ['-', '_', ''], $s)`: the pairs are
      applied one after the other to the whole string. */
  function UrlEncode(s: string): string {
    StrReplace(StrReplace(StrReplace(s, "+", "-"), "/", "_"), "=", "")
  }

  /** `str_replace(['-', '_'], ['+', '/'], $s)`. */
  function UrlDecode(s: string): string {
    StrReplace(StrReplace(s, "-", "+"), "_", "/")
  }

  function Substitute(s: string): string {
    ReplaceChar(ReplaceChar(ReplaceChar(s, '+', "-"), '/', "_"), '=', "")
  }

  function Unsubstitute(s: string): string {
    ReplaceChar(ReplaceChar(s, '-', "+"), '_', "/")
  }

  lemma UrlEncodeIsSubstitute(s: string)
    ensures UrlEncode(s) == Substitute(s)
  {
    StrReplaceOneChar(s, '+', "-");
    StrReplaceOneChar(ReplaceChar(s, '+', "-"), '/', "_");
    StrReplaceOneChar(ReplaceChar(ReplaceChar(s, '+', "-"), '/', "_"), '=', "");
  }

  lemma UrlDecodeIsUnsubstitute(s: string)
    ensures UrlDecode(s) == Unsubstitute(s)
  {
    StrReplaceOneChar(s, '-', "+");
    StrReplaceOneChar(ReplaceChar(s, '-', "+"), '_', "/");
  }

  /** The URL-safe substitution of base64 text is URL-safe text: no `+`,
      `/`, `=`, and in particular no `.`. */
  lemma UrlEncodeIsUrlSafe(s: string)
    requires IsBase64Text(s)
    ensures IsUrlSafeText(UrlEncode(s))
  {
    UrlEncodeIsSubstitute(s);
    var a := ReplaceChar(s, '+', "-");
    var b := ReplaceChar(a, '/', "_");
    var r := ReplaceChar(b, '=', "");
    forall i | 0 <= i < |r|
      ensures IsUrlSafeChar(r[i])
    {
      var x := r[i];
      ReplaceCharChars(b, '=', "", x);
      ReplaceCharChars(a, '/', "_", x);
      if x != '_' {
        ReplaceCharChars(s, '+', "-", x);
      }
    }
  }

  lemma SubstituteAppend(a: string, b: string)
    ensures Substitute(a + b) == Substitute(a) + Substitute(b)
  {
    ReplaceCharAppend(a, b, '+', "-");
    ReplaceCharAppend(ReplaceChar(a, '+', "-"), ReplaceChar(b, '+', "-"), '/', "_");
    ReplaceCharAppend(ReplaceChar(ReplaceChar(a, '+', "-"), '/', "_"),
                      ReplaceChar(ReplaceChar(b, '+', "-"), '/', "_"), '=', "");
  }

  lemma UnsubstituteAppend(a: string, b: string)
    ensures Unsubstitute(a + b) == Unsubstitute(a) + Unsubstitute(b)
  {
    ReplaceCharAppend(a, b, '-', "+");
    ReplaceCharAppend(ReplaceChar(a, '-', "+"), ReplaceChar(b, '-', "+"), '_', "/");
  }

  lemma {:induction false} SubstituteRoundTrip(s: string)
    requires IsBase64Text(s)
    ensures Unsubstitute(Substitute(s)) == WithoutPadding(s)
    decreases |s|
  {
    if s != [] {
      var x, t := [s[0]], s[1..];
      assert s == x + t;
      SubstituteAppend(x, t);
      UnsubstituteAppend(Substitute(x), Substitute(t));
      ReplaceCharAppend(x, t, '=', "");
      assert IsBase64Text(t);
      SubstituteRoundTrip(t);
      assert x[1..] == [];
    }
  }

  /** Undoing the URL-safe substitution of base64 text gives back the text
      without its padding. */
  lemma UrlRoundTrip(s: string)
    requires IsBase64Text(s)
    ensures UrlDecode(UrlEncode(s)) == WithoutPadding(s)
  {
    UrlEncodeIsSubstitute(s);
    UrlDecodeIsUnsubstitute(Substitute(s));
    SubstituteRoundTrip(s);
  }

  /** `json_encode(['typ' => 'JWT', 'alg' => 'HS256'])`. */
  function Header(): PhpValue {
    Obj(map["typ" := Str("JWT"), "alg" := Str("HS256")])
  }

  /** The claims of a token issued at `issuedAt`. */
  function Claims(issuedAt: int, userId: string, email: string): PhpValue {
    Obj(map["iat" := Int(issuedAt), "exp" := Int(issuedAt + TokenLifetime),
            "user_id" := Str(userId), "email" := Str(email)])
  }

  /** `iat` and `exp` of a token issued at `issuedAt` are PHP integers, so
      `json_decode` reads them back as integers. `time()` always is one. */
  predicate Issuable(issuedAt: int) {
    IsPhpInt(issuedAt) && IsPhpInt(issuedAt + TokenLifetime)
  }

  /** Base64 followed by the URL-safe substitution. */
  function EncodeSegment(p: Primitives, data: string): string {
    UrlEncode(p.base64Encode(data))
  }

  /** The URL-safe substitution undone, followed by base64 decoding. */
  function DecodeSegment(p: Primitives, segment: string): string {
    p.base64Decode(UrlDecode(segment))
  }

  /** The third segment: the encoded HMAC-SHA256 of `header.payload`. */
  function Signature(p: Primitives, secret: string, header: string, payload: string): (s: string)
    ensures Lawful(p) ==> IsUrlSafeText(s) && '.' !in s
  {
    EncodedIsUrlSafe(p, p.hmacSha256(header + "." + payload, secret));
    EncodeSegment(p, p.hmacSha256(header + "." + payload, secret))
  }

  /** `generateJWT($userId, $email)` with `time()` as `now` and the process
      secret as `secret`: under the library assumptions, three URL-safe
      segments joined by `.` (the encoded header, the encoded claims and the
      signature over both), so the token holds no space. */
  function GenerateJWT(p: Primitives, secret: string, now: int, userId: string, email: string): (token: string)
    ensures Lawful(p) ==>
      var parts := Explode(token, '.');
      && |parts| == 3
      && parts[0] == EncodeSegment(p, p.jsonEncode(Header()))
      && parts[1] == EncodeSegment(p, p.jsonEncode(Claims(now, userId, email)))
      && parts[2] == Signature(p, secret, parts[0], parts[1])
      && IsUrlSafeText(parts[0]) && IsUrlSafeText(parts[1]) && IsUrlSafeText(parts[2])
    ensures Lawful(p) ==> ' ' !in token
  {
    var header := EncodeSegment(p, p.jsonEncode(Header()));
    var payload := EncodeSegment(p, p.jsonEncode(Claims(now, userId, email)));
    var signature := Signature(p, secret, header, payload);
    EncodedIsUrlSafe(p, p.jsonEncode(Header()));
    EncodedIsUrlSafe(p, p.jsonEncode(Claims(now, userId, email)));
    EncodedIsUrlSafe(p, p.hmacSha256(header + "." + payload, secret));
    JoinedSegments(header, payload, signature);
    header + "." + payload + "." + signature
  }

  /** Under the library assumptions an encoded segment is URL-safe. */
  lemma EncodedIsUrlSafe(p: Primitives, data: string)
    ensures Lawful(p) ==> IsUrlSafeText(EncodeSegment(p, data)) && '.' !in EncodeSegment(p, data)
  {
    if Lawful(p) {
      UrlEncodeIsUrlSafe(p.base64Encode(data));
      UrlSafeHasNoDot(EncodeSegment(p, data));
    }
  }

  /** Three URL-safe segments joined by dots split back into those three,
      and the joined text holds no space. */
  lemma JoinedSegments(header: string, payload: string, signature: string)
    ensures IsUrlSafeText(header) && IsUrlSafeText(payload) && IsUrlSafeText(signature) ==>
      && Explode(header + "." + payload + "." + signature, '.') == [header, payload, signature]
      && ' ' !in header + "." + payload + "." + signature
  {
    if IsUrlSafeText(header) && IsUrlSafeText(payload) && IsUrlSafeText(signature) {
      UrlSafeHasNoDot(header);
      UrlSafeHasNoDot(payload);
      UrlSafeHasNoDot(signature);
      assert header + "." + payload + "." + signature == header + ['.'] + payload + ['.'] + signature;
      ExplodeThree(header, payload, signature, '.');
    }
  }

  /** `$payload->exp < time()` as PHP 8 evaluates it against an integer:
      integers compare numerically; `null` and booleans compare as booleans;
      an array is greater than any integer; an object compares as 1. */
  predicate LessThan(v: PhpValue, now: int)
    ensures v.Int? ==> (LessThan(v, now) <==> v.i < now)
    ensures v.Null? || v.Bool? ==> (LessThan(v, now) <==> !Truthy(v) && Truthy(Int(now)))
    ensures v.Arr? || v.Str? ==> !LessThan(v, now)
    ensures v.Obj? ==> (LessThan(v, now) <==> 1 < now)
  {
    match v
    case Null => now != 0
    case Bool(b) => !b && now != 0
    case Int(i) => i < now
    case Str(_) => false
    case Arr(_) => false
    case Obj(_) => 1 < now
  }

  /** `isset($payload->exp) && $payload->exp < time()`. */
  predicate Expired(claims: PhpValue, now: int)
    ensures Expired(claims, now) ==> claims.Obj? && "exp" in claims.props && claims.props["exp"] != Null
    ensures claims.Obj? && "exp" in claims.props && claims.props["exp"].Int? ==>
              (Expired(claims, now) <==> claims.props["exp"].i < now)
  {
    !Prop(claims, "exp").Null? && LessThan(Prop(claims, "exp"), now)
  }

  /** The claims of a token issued at `issuedAt` count as expired exactly
      after `issuedAt + 86400`. */
  lemma ClaimsExpireAfterLifetime(issuedAt: int, userId: string, email: string, now: int)
    ensures Expired(Claims(issuedAt, userId, email), now) <==> issuedAt + TokenLifetime < now
  {
  }

  /** `validateJWT($token)`: `false` (as `Bool(false)`) or the decoded
      payload. */
  function ValidateJWT(p: Primitives, secret: string, token: string, now: int): (r: PhpValue)
    ensures |Explode(token, '.')| != 3 ==> r == Bool(false)
    ensures r == Bool(false) || r == p.jsonDecode(DecodeSegment(p, Explode(token, '.')[1]))
  {
    var parts := Explode(token, '.');
    if |parts| != 3 then Bool(false)
    else
      var header := DecodeSegment(p, parts[0]);
      var payload := DecodeSegment(p, parts[1]);
      var expected := Signature(p, secret, EncodeSegment(p, header), EncodeSegment(p, payload));
      if expected != parts[2] then Bool(false)
      else
        var claims := p.jsonDecode(payload);
        if Expired(claims, now) then Bool(false) else claims
  }

  /** The three ways `validateJWT` rejects a token, and what it returns
      otherwise: a token that does not split into three parts, a third part
      other than the signature recomputed over the re-encoded first two,
      and an `exp` claim before `now` are rejected; everything else yields
      the decoded payload, so `exp == now` and a missing `exp` pass. */
  lemma ValidateJWTCases(p: Primitives, secret: string, token: string, now: int)
    ensures var parts := Explode(token, '.');
      var r := ValidateJWT(p, secret, token, now);
      && (|parts| != 3 ==> r == Bool(false))
      && (|parts| == 3 ==>
            var header := DecodeSegment(p, parts[0]);
            var payload := DecodeSegment(p, parts[1]);
            var claims := p.jsonDecode(payload);
            && (parts[2] != Signature(p, secret, EncodeSegment(p, header), EncodeSegment(p, payload)) ==> r == Bool(false))
            && (parts[2] == Signature(p, secret, EncodeSegment(p, header), EncodeSegment(p, payload)) ==>
                  && (Prop(claims, "exp").Int? && Prop(claims, "exp").i < now ==> r == Bool(false))
                  && (Prop(claims, "exp").Int? && Prop(claims, "exp").i >= now ==> r == claims)
                  && (Prop(claims, "exp").Null? ==> r == claims)))
  {
  }

  lemma UrlSafeHasNoDot(s: string)
    requires IsUrlSafeText(s)
    ensures '.' !in s && ' ' !in s
  {
  }

  /** Decoding an encoded segment gives the data back. */
  lemma SegmentRoundTrip(p: Primitives, data: string)
    requires Lawful(p)
    ensures DecodeSegment(p, EncodeSegment(p, data)) == data
  {
    UrlRoundTrip(p.base64Encode(data));
  }

  /** A token issued at `issuedAt` with a secret is accepted with that secret
      at every `now` up to and including `issuedAt + 86400`, and the payload
      returned carries the user id and email it was issued for. */
  lemma GenerateThenValidate(p: Primitives, secret: string, issuedAt: int, userId: string, email: string, now: int)
    requires Lawful(p) && Issuable(issuedAt)
    requires now <= issuedAt + TokenLifetime
    ensures var r := ValidateJWT(p, secret, GenerateJWT(p, secret, issuedAt, userId, email), now);
      && r == Claims(issuedAt, userId, email)
      && Prop(r, "user_id") == Str(userId)
      && Prop(r, "email") == Str(email)
      && Prop(r, "exp") == Int(issuedAt + TokenLifetime)
  {
    GeneratedSignatureMatches(p, secret, issuedAt, userId, email);
  }

  /** The same token is rejected at every later `now`. */
  lemma GeneratedTokenExpires(p: Primitives, secret: string, issuedAt: int, userId: string, email: string, now: int)
    requires Lawful(p) && Issuable(issuedAt)
    requires now > issuedAt + TokenLifetime
    ensures ValidateJWT(p, secret, GenerateJWT(p, secret, issuedAt, userId, email), now) == Bool(false)
  {
    GeneratedSignatureMatches(p, secret, issuedAt, userId, email);
  }

  lemma GeneratedSignatureMatches(p: Primitives, secret: string, issuedAt: int, userId: string, email: string)
    requires Lawful(p) && Issuable(issuedAt)
    ensures var parts := Explode(GenerateJWT(p, secret, issuedAt, userId, email), '.');
      && |parts| == 3
      && DecodeSegment(p, parts[1]) == p.jsonEncode(Claims(issuedAt, userId, email))
      && parts[2] == Signature(p, secret, EncodeSegment(p, DecodeSegment(p, parts[0])),
                               EncodeSegment(p, DecodeSegment(p, parts[1])))
      && p.jsonDecode(DecodeSegment(p, parts[1])) == Claims(issuedAt, userId, email)
  {
    SegmentRoundTrip(p, p.jsonEncode(Header()));
    SegmentRoundTrip(p, p.jsonEncode(Claims(issuedAt, userId, email)));
    assert FlatObject(Claims(issuedAt, userId, email));
  }
}

=== FILE: oracles.dfy ===
/**
  The library functions the script calls but does not define: base64,
  JSON, HMAC-SHA256 and PHP's password hashing. They are carried as
  function values (so the model never fixes their implementation), and
  `Lawful` collects, as one explicit assumption, the few facts about them
  that the token and login properties rely on.
 */
module Oracles {
  import opened Php

  datatype Primitives = Primitives(
    /** `base64_encode`: standard alphabet, with `=` padding. */
    base64Encode: string -> string,
    /** `base64_decode` in its default, non-strict mode. */
    base64Decode: string -> string,
    /** `hash_hmac('sha256', $data, $key, true)`, raw digest. */
    hmacSha256: (string, string) -> string,
    /** `json_encode`. */
    jsonEncode: PhpValue -> string,
    /** `json_decode` in object mode; `null` for malformed text. */
    jsonDecode: string -> PhpValue,
    /** `password_hash($password, PASSWORD_DEFAULT)` with its random salt
        made an argument. */
    passwordHash: (string, string) -> string,
    /** `password_verify($password, $hash)`. */
    passwordVerify: (string, string) -> bool)

  /** The 64 characters of the standard base64 alphabet plus the padding `=`
      (section 4 of RFC 4648). */
  predicate IsBase64Char(c: char) {
    ('A' <= c <= 'Z') || ('a' <= c <= 'z') || ('0' <= c <= '9') || c == '+' || c == '/' || c == '='
  }

  predicate IsBase64Text(s: string) {
    forall i :: 0 <= i < |s| ==> IsBase64Char(s[i])
  }

  /** `s` with its `=` padding removed. */
  function WithoutPadding(s: string): string {
    ReplaceChar(s, '=', "")
  }

  /** A property name `json_decode` accepts in object mode: it must not
      start with a NUL character. */
  predicate IsPropertyName(k: string) {
    k == [] || k[0] != '\0'
  }

  /** A JSON object whose property names `json_decode` accepts and whose
      properties are all strings or integers within PHP's 64-bit range: the
      shape of the token header and the token claims. */
  predicate FlatObject(v: PhpValue) {
    && v.Obj?
    && forall k :: k in v.props ==>
         && IsPropertyName(k)
         && (v.props[k].Str? || (v.props[k].Int? && IsPhpInt(v.props[k].i)))
  }

  /** The assumptions the model makes about the library functions:
      base64 output uses only the base64 alphabet; non-strict decoding
      inverts encoding even with the padding stripped; JSON decoding inverts
      encoding on flat objects; a password verifies against its own hash. */
  ghost predicate Lawful(p: Primitives) {
    && (forall s :: IsBase64Text(p.base64Encode(s)))
    && (forall s :: p.base64Decode(WithoutPadding(p.base64Encode(s))) == s)
    && (forall v :: FlatObject(v) ==> p.jsonDecode(p.jsonEncode(v)) == v)
    && (forall pw, salt :: p.passwordVerify(pw, p.passwordHash(pw, salt)))
  }
}

=== FILE: php.dfy ===
/**
  The slice of PHP's runtime semantics that the API script depends on:
  the values `json_decode` produces, truthiness (`(bool)`, `empty`, `!`,
  `?:`), `isset` and `??` on array offsets, the string conversion PDO
  applies when it binds a parameter, and the string functions `str_replace`,
  `explode`, `strpos`/`substr` and `trim`.
 */
module Php {

  datatype Option<+T> = None | Some(value: T)

  /** A PHP value as `json_decode` can produce it. Floats are not modelled.
      `Arr` is a PHP array (a JSON list, or a JSON object decoded in
      associative mode); only its element count matters to the script.
      `Obj` is a `stdClass` object (a JSON object decoded in object mode). */
  datatype PhpValue =
    | Null
    | Bool(b: bool)
    | Int(i: int)
    | Str(s: string)
    | Arr(count: nat)
    | Obj(props: map<string, PhpValue>)

  /** PHP's `(bool)` conversion: `null`, `false`, `0`, `""`, `"0"` and the
      empty array are false; every object is true. */
  predicate Truthy(v: PhpValue)
    ensures !Truthy(v) <==> v in {Null, Bool(false), Int(0), Str(""), Str("0"), Arr(0)}
  {
    match v
    case Null => false
    case Bool(b) => b
    case Int(i) => i != 0
    case Str(s) => s != "" && s != "0"
    case Arr(n) => n > 0
    case Obj(_) => true
  }

  /** `empty($x)` on a variable that is set. */
  predicate Empty(v: PhpValue)
    ensures Empty(v) <==> v in {Null, Bool(false), Int(0), Str(""), Str("0"), Arr(0)}
  {
    !Truthy(v)
  }

  lemma EmptyStrings(s: string)
    ensures Empty(Str(s)) <==> s == "" || s == "0"
  {
  }

  /** `$input[key]` as a lookup that may miss. */
  function Field(input: map<string, PhpValue>, key: string): Option<PhpValue> {
    if key in input then Some(input[key]) else None
  }

  /** `isset($input[key])`: the key is present and its value is not `null`. */
  predicate Isset(v: Option<PhpValue>) {
    v.Some? && !v.value.Null?
  }

  /** `isset($input[key])` holds exactly when the key is present with a
      value other than `null`. */
  lemma IssetField(input: map<string, PhpValue>, key: string)
    ensures Isset(Field(input, key)) <==> key in input && input[key] != Null
  {
  }

  /** `$input[key] ?? $default`. */
  function Coalesce(v: Option<PhpValue>, default: PhpValue): (r: PhpValue)
    ensures Isset(v) ==> r == v.value
    ensures !Isset(v) ==> r == default
  {
    if Isset(v) then v.value else default
  }

  /** `$o->name` read on any value: a missing property, or a value that is not
      an object, yields `null`. */
  function Prop(v: PhpValue, name: string): (r: PhpValue)
    ensures r != Null <==> v.Obj? && name in v.props && v.props[name] != Null
    ensures r != Null ==> r == v.props[name]
  {
    if v.Obj? && name in v.props then v.props[name] else Null
  }

  /** `json_decode(…, true)` never produces objects. */
  predicate AssocDecoded(input: map<string, PhpValue>) {
    forall k :: k in input ==> !input[k].Obj?
  }

  function DigitChar(d: nat): char
    requires d < 10
  {
    "0123456789"[d]
  }

  function NatToString(n: nat): (r: string)
    ensures r != []
    decreases n
  {
    if n < 10 then [DigitChar(n)] else NatToString(n / 10) + [DigitChar(n % 10)]
  }

  /** The range of PHP's 64-bit `int`; an integer literal outside it is
      read as a float. */
  const PhpIntMax: int := 0x7FFF_FFFF_FFFF_FFFF
  const PhpIntMin: int := -0x8000_0000_0000_0000

  predicate IsPhpInt(i: int) {
    PhpIntMin <= i <= PhpIntMax
  }

  /** PHP's decimal rendering of an integer. */
  function IntToString(i: int): string {
    if i < 0 then "-" + NatToString(-i) else NatToString(i)
  }

  /** The string PDO binds for a value of an associatively decoded request
      body: `true` is `"1"`, `false` is `""`, an integer its decimal form, an
      array `"Array"`. A `null` never reaches it: `Input` turns a `null`
      field into `''` and PDO binds a `null` claim as SQL `NULL`; its case
      gives `""` only to keep the function total. */
  function BodyString(v: PhpValue): (s: string)
    requires !v.Obj?
    ensures s == "" <==> v == Null || v == Bool(false) || v == Str("")
    ensures v.Str? ==> s == v.s
  {
    match v
    case Null => ""
    case Bool(b) => if b then "1" else ""
    case Int(i) => IntToString(i)
    case Str(s) => s
    case Arr(_) => "Array"
  }

  /** `str_replace($search, $replace, $subject)` for one search string: a
      left-to-right scan that replaces every non-overlapping occurrence.
      PHP returns the subject unchanged for an empty search string. */
  function StrReplace(subject: string, search: string, replace: string): (r: string)
    ensures search == [] ==> r == subject
    ensures replace == search ==> r == subject
    ensures |replace| == |search| ==> |r| == |subject|
    decreases |subject|
  {
    if search == [] || |subject| < |search| then subject
    else if subject[..|search|] == search then replace + StrReplace(subject[|search|..], search, replace)
    else [subject[0]] + StrReplace(subject[1..], search, replace)
  }

  /** Replacing one character by a string, character by character. */
  function ReplaceChar(s: string, c: char, replace: string): string {
    if s == [] then [] else (if s[0] == c then replace else [s[0]]) + ReplaceChar(s[1..], c, replace)
  }

  /** `str_replace` with a one-character search string is the
      character-by-character substitution. */
  lemma {:induction false} StrReplaceOneChar(s: string, c: char, replace: string)
    ensures StrReplace(s, [c], replace) == ReplaceChar(s, c, replace)
    decreases |s|
  {
    if s != [] {
      assert s[..1] == [c] <==> s[0] == c;
      StrReplaceOneChar(s[1..], c, replace);
    }
  }

  lemma {:induction false} ReplaceCharAppend(a: string, b: string, c: char, replace: string)
    ensures ReplaceChar(a + b, c, replace) == ReplaceChar(a, c, replace) + ReplaceChar(b, c, replace)
    decreases |a|
  {
    if a == [] {
      assert a + b == b;
    } else {
      assert (a + b)[0] == a[0];
      assert (a + b)[1..] == a[1..] + b;
      ReplaceCharAppend(a[1..], b, c, replace);
    }
  }

  /** A substitution leaves only characters of the subject other than the
      replaced one, and characters of the replacement. */
  lemma {:induction false} ReplaceCharChars(s: string, c: char, replace: string, x: char)
    requires x in ReplaceChar(s, c, replace)
    ensures (x in s && x != c) || x in replace
    decreases |s|
  {
    var head := if s[0] == c then replace else [s[0]];
    if x !in head {
      ReplaceCharChars(s[1..], c, replace, x);
    }
  }

  /** A search string containing a character the subject lacks cannot occur,
      so `str_replace` returns the subject unchanged. */
  lemma {:induction false} StrReplaceAbsent(subject: string, search: string, replace: string, x: char)
    requires x in search && x !in subject
    ensures StrReplace(subject, search, replace) == subject
    decreases |subject|
  {
    if |subject| >= |search| {
      assert subject[..|search|] != search;
      StrReplaceAbsent(subject[1..], search, replace, x);
      assert subject == [subject[0]] + subject[1..];
    }
  }

  /** No occurrence of the search string starts in front of a text that
      lacks its last character, when that character does not occur earlier in
      the search string either. */
  lemma NoMatchBefore(a: string, search: string, rest: string)
    requires a != [] && search != []
    requires search[|search| - 1] !in a && search[|search| - 1] !in search[..|search| - 1]
    ensures (a + search + rest)[..|search|] != search
  {
    var s := a + search + rest;
    var n := |search|;
    if n - 1 < |a| {
      assert s[n - 1] == a[n - 1];
    } else {
      assert s[n - 1] == search[n - 1 - |a|];
      assert search[..n - 1][n - 1 - |a|] == search[n - 1 - |a|];
    }
  }

  /** When the search string's last character occurs neither in `a` nor
      earlier in the search string, no occurrence can start inside `a`: the
      scan copies `a`, replaces the occurrence after it and goes on. */
  lemma {:induction false} StrReplacePassesOver(a: string, search: string, rest: string, replace: string)
    requires search != []
    requires search[|search| - 1] !in a && search[|search| - 1] !in search[..|search| - 1]
    ensures StrReplace(a + search + rest, search, replace) == a + replace + StrReplace(rest, search, replace)
    decreases |a|
  {
    var s := a + search + rest;
    if a == [] {
      assert s[..|search|] == search && s[|search|..] == rest;
    } else {
      NoMatchBefore(a, search, rest);
      assert s[1..] == a[1..] + search + rest;
      assert StrReplace(s, search, replace) == [a[0]] + StrReplace(a[1..] + search + rest, search, replace);
      StrReplacePassesOver(a[1..], search, rest, replace);
      assert [a[0]] + a[1..] == a;
    }
  }

  /** Removing a search string that ends in a character found nowhere else
      removes both of its occurrences around two texts that lack that
      character. */
  lemma RemoveBoth(search: string, a: string, b: string)
    requires search != []
    requires search[|search| - 1] !in a && search[|search| - 1] !in b
    requires search[|search| - 1] !in search[..|search| - 1]
    ensures StrReplace(search + a + search + b, search, "") == a + b
  {
    var tail := a + search + b;
    assert search + a + search + b == search + tail;
    StrReplaceLeading(search, tail, "");
    StrReplacePassesOver(a, search, b, "");
    StrReplaceAbsent(b, search, "", search[|search| - 1]);
  }

  /** An occurrence at the very start is replaced. */
  lemma StrReplaceLeading(search: string, rest: string, replace: string)
    requires search != []
    ensures StrReplace(search + rest, search, replace) == replace + StrReplace(rest, search, replace)
  {
    assert (search + rest)[..|search|] == search && (search + rest)[|search|..] == rest;
  }

  /** The scan is a single pass: removing `Bearer ` from `BeBearer arer `
      leaves `Bearer `, which the scan does not look at again. */
  lemma StrReplaceIsOnePass()
    ensures StrReplace("BeBearer arer ", "Bearer ", "") == "Bearer "
  {
    var search, head, rest := "Bearer ", "Be", "arer ";
    assert search[6] == ' ' && ' ' !in head && ' ' !in search[..6];
    assert StrReplace(rest, search, "") == rest;
    StrReplacePassesOver(head, search, rest, "");
    assert head + search + rest == "BeBearer arer ";
    assert head + [] + rest == "Bearer ";
  }

  function CountChar(s: string, c: char): nat {
    if s == [] then 0 else (if s[0] == c then 1 else 0) + CountChar(s[1..], c)
  }

  /** `implode($sep, $parts)` for a one-character separator. */
  function Join(parts: seq<string>, sep: char): string
    requires parts != []
  {
    if |parts| == 1 then parts[0] else parts[0] + [sep] + Join(parts[1..], sep)
  }

  /** `explode($sep, $s)` for a one-character separator: the pieces between
      separators, empty pieces included, so there is always one more piece
      than there are separators, and joining the pieces with the separator
      gives the string back. */
  function Explode(s: string, sep: char): (parts: seq<string>)
    ensures |parts| == CountChar(s, sep) + 1
    ensures forall i :: 0 <= i < |parts| ==> sep !in parts[i]
    ensures Join(parts, sep) == s
  {
    if s == [] then [[]]
    else
      var rest := Explode(s[1..], sep);
      if s[0] == sep then
        assert s == [] + [sep] + s[1..];
        [[]] + rest
      else
        var parts := [[s[0]] + rest[0]] + rest[1..];
        assert Join(parts, sep) == s by {
          if |rest| == 1 {
            assert s == [s[0]] + rest[0];
          } else {
            assert parts[1..] == rest[1..];
            assert Join(rest, sep) == rest[0] + [sep] + Join(rest[1..], sep);
            assert s == [s[0]] + (rest[0] + [sep] + Join(rest[1..], sep));
          }
        }
        parts
  }

  lemma {:induction false} ExplodeWhole(s: string, sep: char)
    requires sep !in s
    ensures Explode(s, sep) == [s]
    decreases |s|
  {
    if s != [] {
      ExplodeWhole(s[1..], sep);
      assert [s[0]] + s[1..] == s;
    }
  }

  lemma {:induction false} ExplodeCons(a: string, sep: char, rest: string)
    requires sep !in a
    ensures Explode(a + [sep] + rest, sep) == [a] + Explode(rest, sep)
    decreases |a|
  {
    var s := a + [sep] + rest;
    if a == [] {
      assert s[0] == sep && s[1..] == rest;
    } else {
      assert s[0] == a[0];
      assert s[1..] == a[1..] + [sep] + rest;
      ExplodeCons(a[1..], sep, rest);
      assert [a[0]] + a[1..] == a;
    }
  }

  /** Three separator-free pieces joined by the separator explode back into
      exactly those pieces. */
  lemma ExplodeThree(a: string, b: string, c: string, sep: char)
    requires sep !in a && sep !in b && sep !in c
    ensures Explode(a + [sep] + b + [sep] + c, sep) == [a, b, c]
  {
    var tail := b + [sep] + c;
    assert a + [sep] + b + [sep] + c == a + [sep] + tail;
    ExplodeWhole(c, sep);
    assert Explode(c, sep) == [c];
    ExplodeCons(b, sep, c);
    assert Explode(tail, sep) == [b] + [c];
    ExplodeCons(a, sep, tail);
    assert Explode(a + [sep] + tail, sep) == [a] + [b, c];
  }

  /** `strpos($s, $c)` when it does not return false. */
  function IndexOf(s: string, c: char): (k: nat)
    requires c in s
    ensures k < |s| && s[k] == c && c !in s[..k]
  {
    if s[0] == c then 0 else 1 + IndexOf(s[1..], c)
  }

  lemma IndexOfIs(s: string, c: char, k: nat)
    requires k < |s| && s[k] == c && c !in s[..k]
    ensures IndexOf(s, c) == k
  {
  }

  /** The characters `trim` strips: space, tab, newline, carriage return,
      NUL and vertical tab. */
  predicate IsTrimChar(c: char) {
    c == ' ' || c == '\t' || c == '\n' || c == '\r' || c == '\0' || c == '\U{0B}'
  }

  function TrimLeft(s: string): (r: string)
    ensures |r| <= |s| && r == s[|s| - |r|..]
    ensures r == [] || !IsTrimChar(r[0])
    ensures forall i :: 0 <= i < |s| - |r| ==> IsTrimChar(s[i])
  {
    if s != [] && IsTrimChar(s[0]) then TrimLeft(s[1..]) else s
  }

  function TrimRight(s: string): (r: string)
    ensures |r| <= |s| && r == s[..|r|]
    ensures r == [] || !IsTrimChar(r[|r| - 1])
    ensures forall i :: |r| <= i < |s| ==> IsTrimChar(s[i])
  {
    if s != [] && IsTrimChar(s[|s| - 1]) then TrimRight(s[..|s| - 1]) else s
  }

  /** `r` is `s` with the first `k` characters and everything after `k + |r|`
      cut off, and all that was cut off are trimmed characters. */
  predicate TrimmedInfixAt(s: string, r: string, k: nat) {
    && k + |r| <= |s|
    && r == s[k..k + |r|]
    && (forall i :: 0 <= i < k ==> IsTrimChar(s[i]))
    && (forall i :: k + |r| <= i < |s| ==> IsTrimChar(s[i]))
  }

  /** `trim($s)`: an infix of `s` that neither starts nor ends with a trimmed
      character, everything cut off being trimmed characters. */
  function Trim(s: string): (r: string)
    ensures r == [] || (!IsTrimChar(r[0]) && !IsTrimChar(r[|r| - 1]))
    ensures exists k: nat :: TrimmedInfixAt(s, r, k)
  {
    var l := TrimLeft(s);
    var r := TrimRight(l);
    assert TrimmedInfixAt(s, r, |s| - |l|);
    r
  }
}

=== FILE: routing.dfy ===
/**
  Request routing: the endpoint name taken from the request URI by
  `preg_match('/\/api\/([^\/\?]+)/', …)` and the decision table that maps
  the request verb and the endpoint to a handler or an error status.
 */
module Routing {

  /** A character of the captured group `[^\/\?]`. */
  predicate IsSegmentChar(c: char) {
    c != '/' && c != '?'
  }

  /** The greedy `[^\/\?]+` run at the start of `s` (possibly empty). */
  function SegmentRun(s: string): (r: string)
    ensures |r| <= |s| && r == s[..|r|]
    ensures forall i :: 0 <= i < |r| ==> IsSegmentChar(r[i])
    ensures |r| == |s| || !IsSegmentChar(s[|r|])
  {
    if s != [] && IsSegmentChar(s[0]) then [s[0]] + SegmentRun(s[1..]) else []
  }

  /** The pattern matches at position `i`: `/api/` followed by at least one
      character of the group. */
  predicate MatchesAt(uri: string, i: int) {
    0 <= i && i + 6 <= |uri| && uri[i..i + 5] == "/api/" && IsSegmentChar(uri[i + 5])
  }

  /** The endpoint found by scanning from position `i`: the capture of the
      leftmost match at or after `i`, or `""` when there is none. */
  function EndpointFrom(uri: string, i: nat): (ep: string)
    requires i <= |uri|
    ensures ep == "" <==> forall j :: i <= j ==> !MatchesAt(uri, j)
    ensures ep != "" ==> exists j :: i <= j && MatchesAt(uri, j) && ep == SegmentRun(uri[j + 5..])
                                     && forall k :: i <= k < j ==> !MatchesAt(uri, k)
    decreases |uri| - i
  {
    if i + 6 > |uri| then ""
    else if MatchesAt(uri, i) then SegmentRun(uri[i + 5..])
    else EndpointFrom(uri, i + 1)
  }

  /** `$endpoint` of lines 313-318: empty exactly when the pattern matches
      nowhere; otherwise the whole run of non-`/`, non-`?` characters after
      the leftmost `/api/` that is followed by such a character. */
  function Endpoint(uri: string): (ep: string)
    ensures forall i :: 0 <= i < |ep| ==> IsSegmentChar(ep[i])
    ensures ep == "" <==> forall j :: !MatchesAt(uri, j)
    ensures ep != "" ==>
              exists j :: MatchesAt(uri, j) && ep == SegmentRun(uri[j + 5..])
                          && forall k :: 0 <= k < j ==> !MatchesAt(uri, k)
  {
    EndpointFrom(uri, 0)
  }

  /** What the script does with a request, before any handler runs. */
  datatype Route =
    | Preflight
    | Register
    | Login
    | Me
    | ListTodos
    | CreateTodo
    | UpdateTodo
    | DeleteTodo
    | MethodNotAllowed
    | NoSuchEndpoint

  /** The `if`/`elseif`/`switch` chain of lines 324-629. */
  function Dispatch(verb: string, endpoint: string): (r: Route)
    ensures !r.Preflight?
    ensures r.Register? || r.Login? ==> verb == "POST" && endpoint in {"register", "login"}
    ensures r.Me? ==> verb == "GET" && endpoint == "me"
    ensures (r.ListTodos? || r.CreateTodo? || r.UpdateTodo? || r.DeleteTodo?) <==>
              endpoint == "" && verb in {"GET", "POST", "PUT", "DELETE"}
    ensures r.MethodNotAllowed? <==> endpoint == "" && verb !in {"GET", "POST", "PUT", "DELETE"}
    ensures r.NoSuchEndpoint? ==> endpoint != ""
  {
    if endpoint == "register" && verb == "POST" then Register
    else if endpoint == "login" && verb == "POST" then Login
    else if endpoint == "me" && verb == "GET" then Me
    else if endpoint == "" then
      (if verb == "GET" then ListTodos
       else if verb == "POST" then CreateTodo
       else if verb == "PUT" then UpdateTodo
       else if verb == "DELETE" then DeleteTodo
       else MethodNotAllowed)
    else NoSuchEndpoint
  }

  /** The whole routing decision: `OPTIONS` is answered at lines 31-34,
      before the URI is looked at. */
  function RouteRequest(verb: string, uri: string): (r: Route)
    ensures r.Preflight? <==> verb == "OPTIONS"
    ensures r.MethodNotAllowed? ==> Endpoint(uri) == ""
    ensures r.NoSuchEndpoint? ==> Endpoint(uri) != ""
  {
    if verb == "OPTIONS" then Preflight else Dispatch(verb, Endpoint(uri))
  }

  /** The routing table is total and reads as follows: `OPTIONS` is answered
      with 200 for any URI; `register` and `login` need `POST`, `me` needs
      `GET`; the empty endpoint takes `GET`, `POST`, `PUT` and `DELETE` and
      answers 405 to anything else; every other pair is 404, so a known
      endpoint with a wrong verb is 404 and only the empty endpoint gives
      405. */
  lemma RoutingTable(verb: string, uri: string)
    ensures verb == "OPTIONS" ==> RouteRequest(verb, uri) == Preflight
    ensures var ep := Endpoint(uri);
      var r := RouteRequest(verb, uri);
      && (verb != "OPTIONS" && ep in {"register", "login"} ==>
            r == (if verb != "POST" then NoSuchEndpoint else if ep == "register" then Register else Login))
      && (verb != "OPTIONS" && ep == "me" ==> r == (if verb == "GET" then Me else NoSuchEndpoint))
      && (verb != "OPTIONS" && ep == "" ==>
            r == (if verb == "GET" then ListTodos
                  else if verb == "POST" then CreateTodo
                  else if verb == "PUT" then UpdateTodo
                  else if verb == "DELETE" then DeleteTodo
                  else MethodNotAllowed))
      && (verb != "OPTIONS" && ep !in {"register", "login", "me", ""} ==> r == NoSuchEndpoint)
      && (r == MethodNotAllowed ==> ep == "" && verb !in {"GET", "POST", "PUT", "DELETE", "OPTIONS"})
  {
  }

  /** A request for `/api/<name>` with a name of segment characters reaches
      the endpoint `<name>`, whatever query string follows. */
  lemma {:induction false} EndpointOfApiPath(name: string, rest: string)
    requires name != [] && forall i :: 0 <= i < |name| ==> IsSegmentChar(name[i])
    requires rest == [] || !IsSegmentChar(rest[0])
    ensures Endpoint("/api/" + name + rest) == name
  {
    var uri := "/api/" + name + rest;
    assert uri[0..5] == "/api/" && uri[5] == name[0];
    assert MatchesAt(uri, 0);
    SegmentRunPrefix(name, rest);
    assert uri[5..] == name + rest;
  }

  lemma {:induction false} SegmentRunPrefix(name: string, rest: string)
    requires forall i :: 0 <= i < |name| ==> IsSegmentChar(name[i])
    requires rest == [] || !IsSegmentChar(rest[0])
    ensures SegmentRun(name + rest) == name
    decreases |name|
  {
    if name == [] {
      assert name + rest == rest;
    } else {
      assert (name + rest)[1..] == name[1..] + rest;
      SegmentRunPrefix(name[1..], rest);
    }
  }
}

=== FILE: store.dfy ===
/**
  The request handlers of the API script and the two tables they work on.
  `Database` holds the rows of `users` and `vue_todos`; the handlers that
  write to a table are its methods, the read-only handlers are functions of
  the rows, and `Handle` is the script's top-level flow for one request:
  preflight, routing, authentication, then the handler.
 */
module Store {
  import opened Php
  import opened Oracles
  import opened Jwt
  import opened Auth
  import opened Tables
  import Routing
  import Config

  /** Everything a request sees that is not part of the request: the
      environment variables, the clock `time()` reads, the clock the database
      stamps `created_at` with, the UUID the next `INSERT` generates and the
      salt `password_hash` picks. */
  datatype Context = Context(
    appEnv: Option<string>,
    jwtSecretEnv: Option<string>,
    now: int,
    dbNow: int,
    freshId: string,
    salt: string)

  function Secret(ctx: Context): string {
    Config.JwtSecret(ctx.jwtSecretEnv)
  }

  /** The PostgreSQL statements are chosen when the environment is
      `production`: the variable itself, or the variable before a `#`
      comment once trimmed. */
  predicate Production(ctx: Context)
    ensures Production(ctx) <==> ctx.appEnv.Some? && Config.Uncommented(ctx.appEnv.value) == "production"
  {
    Config.AppEnv(ctx.appEnv) == "production"
  }

  /** The reasons behind the error answers. */
  datatype Failure =
    | NeedCredentials   // 400: email or password empty
    | EmailInUse        // 400: the email is already registered
    | WrongCredentials  // 401: unknown email or wrong password, alike
    | NeedAuth          // 401: no Authorization header
    | BadToken          // 401: the token does not validate
    | NoSuchUser        // 404: the token's user is not in the table
    | NeedText          // 400: empty todo text
    | NeedId            // 400: empty todo id
    | NeedCompleted     // 400: no completed flag
    | NoSuchTodo        // 404: no row with that id for the caller
    | BadMethod         // 405
    | UnknownEndpoint   // 404
    | DbError           // 500: a PDOException

  /** What the script echoes. */
  datatype Body =
    | NoBody
    | Error(failure: Failure)
    | Session(user: UserView, token: string)
    | Profile(user: UserView)
    | TodoList(rows: seq<Todo>)
    | TodoItem(row: Todo)
    | NoItem                  // `fetch()` found nothing: `false`
    | Succeeded               // `{"success": true}`
    | Fatal                   // an uncaught `TypeError` or `Error`: PHP prints its report
                              // (errors are displayed) and the status code stays 200

  datatype Response = Response(status: int, body: Body)

  /** A request: method, URI, `Authorization` header and the body as
      `json_decode($raw, true)` leaves it. A body that is not a JSON object
      behaves as the empty map: every field is then missing. */
  datatype Request = Request(verb: string, uri: string, authorization: Option<string>, body: map<string, PhpValue>)

  /** `$input[key] ?? ''`. */
  function Input(body: map<string, PhpValue>, key: string): (v: PhpValue)
    ensures key in body && !body[key].Null? ==> v == body[key]
    ensures !(key in body && !body[key].Null?) ==> v == Str("")
    ensures AssocDecoded(body) ==> !v.Obj?
  {
    Coalesce(Field(body, key), Str(""))
  }

  /** `$payload->user_id` can be bound: `bindParam` takes it by reference,
      which PHP allows only for a property of an object, and PDO's string
      conversion throws an `Error` for a claim that is itself an object. On
      any other payload the handlers stop at that point, before the
      statement runs. */
  predicate Bindable(payload: PhpValue) {
    payload.Obj? && !Prop(payload, "user_id").Obj?
  }

  /** `$payload->user_id` as a bound string parameter: a missing or `null`
      claim is SQL `NULL`; any other claim is converted to its string form
      (`5` to `"5"`, `true` to `"1"`, `false` to `""`, an array to
      `"Array"`). */
  function CallerId(payload: PhpValue): (id: Option<string>)
    ensures Bindable(payload) ==> (id.None? <==> Prop(payload, "user_id").Null?)
    ensures Prop(payload, "user_id").Str? ==> id == Some(Prop(payload, "user_id").s)
    ensures id == Some("") <==> Prop(payload, "user_id") in {Bool(false), Str("")}
  {
    var claim := Prop(payload, "user_id");
    if claim.Null? || claim.Obj? then None else Some(BodyString(claim))
  }

  /** The answer `authenticate()` gives before it exits. */
  function Denied(outcome: AuthOutcome): (res: Response)
    requires !outcome.Authorized?
    ensures res.status == 401
    ensures res.body == Error(if outcome.MissingHeader? then NeedAuth else BadToken)
  {
    match outcome
    case MissingHeader => Response(401, Error(NeedAuth))
    case InvalidToken => Response(401, Error(BadToken))
  }

  /** The login handler: the first user with the given email, then
      `password_verify` against the stored hash. An unknown email and a wrong
      password give the same answer; an array password makes
      `password_verify` throw a `TypeError` that no handler catches. */
  function LoginResponse(p: Primitives, ctx: Context, users: seq<User>, body: map<string, PhpValue>): (res: Response)
    requires AssocDecoded(body)
    ensures var email := Input(body, "email"); var password := Input(body, "password");
      && (Empty(email) || Empty(password) <==> res == Response(400, Error(NeedCredentials)))
      && (!Empty(email) && !Empty(password) && (forall u :: u in users ==> u.email != BodyString(email)) ==>
            res == Response(401, Error(WrongCredentials)))
      && (res.body.Session? ==>
            && res.status == 200
            && exists u :: u in users && u.email == BodyString(email) && !password.Arr?
                           && p.passwordVerify(BodyString(password), u.passwordHash)
                           && res.body == Session(View(u), GenerateJWT(p, Secret(ctx), ctx.now, u.id, u.email)))
      && (res == Response(200, Fatal) <==> !Empty(email) && !Empty(password) && password.Arr?
                                           && exists u :: u in users && u.email == BodyString(email))
      && (res.status == 200 ==> res.body.Session? || res.body == Fatal)
      && (!Empty(email) && !Empty(password) && !password.Arr? && FindByEmail(users, BodyString(email)).Some?
          && !p.passwordVerify(BodyString(password), FindByEmail(users, BodyString(email)).value.passwordHash) ==>
            res == Response(401, Error(WrongCredentials)))
      && (res.status == 400 ==> res == Response(400, Error(NeedCredentials)))
      && (res.status == 401 ==> res == Response(401, Error(WrongCredentials)))
      && res.status in {200, 400, 401}
  {
    var email := Input(body, "email");
    var password := Input(body, "password");
    if Empty(email) || Empty(password) then Response(400, Error(NeedCredentials))
    else match FindByEmail(users, BodyString(email))
      case None => Response(401, Error(WrongCredentials))
      case Some(u) =>
        if password.Arr? then Response(200, Fatal)
        else if !p.passwordVerify(BodyString(password), u.passwordHash) then Response(401, Error(WrongCredentials))
        else Response(200, Session(View(u), GenerateJWT(p, Secret(ctx), ctx.now, u.id, u.email)))
  }

  /** A registered user who presents the password their hash was made from
      logs in as themselves: the answer carries their row without the hash
      and a token issued for their id and email. */
  lemma LoginSucceeds(p: Primitives, ctx: Context, users: seq<User>, k: nat, password: string, salt: string)
    requires Lawful(p) && UniqueUsers(users) && k < |users|
    requires users[k].email != "" && users[k].email != "0" && password != "" && password != "0"
    requires users[k].passwordHash == p.passwordHash(password, salt)
    ensures var body := map["email" := Str(users[k].email), "password" := Str(password)];
      LoginResponse(p, ctx, users, body)
        == Response(200, Session(View(users[k]), GenerateJWT(p, Secret(ctx), ctx.now, users[k].id, users[k].email)))
  {
  }

  /** The `me` handler for an authenticated payload: the user whose id the
      payload carries, or 404. */
  function MeResponse(users: seq<User>, payload: PhpValue): (res: Response)
    ensures res == Response(200, Fatal) <==> !Bindable(payload)
    ensures res.body.Profile? <==> Bindable(payload) && exists u :: u in users && Some(u.id) == CallerId(payload)
    ensures res.body.Profile? ==>
              && res.status == 200 && Some(res.body.user.id) == CallerId(payload)
              && exists u :: u in users && View(u) == res.body.user
    ensures Bindable(payload) && (forall u :: u in users ==> Some(u.id) != CallerId(payload)) ==>
              res == Response(404, Error(NoSuchUser))
    ensures res.status == 200 ==> res.body.Profile? || res.body == Fatal
    ensures res.status != 200 ==> res == Response(404, Error(NoSuchUser))
  {
    if !Bindable(payload) then Response(200, Fatal)
    else match FindById(users, CallerId(payload))
      case None => Response(404, Error(NoSuchUser))
      case Some(u) => Response(200, Profile(View(u)))
  }

  /** A token issued for a registered user, presented as `Bearer <token>`
      within its lifetime, authenticates and makes `me` answer with that
      user. */
  lemma SessionTokenIdentifies(p: Primitives, ctx: Context, users: seq<User>, k: nat, issuedAt: int)
    requires Lawful(p) && Issuable(issuedAt) && UniqueUsers(users) && k < |users|
    requires ctx.now <= issuedAt + TokenLifetime
    ensures var token := GenerateJWT(p, Secret(ctx), issuedAt, users[k].id, users[k].email);
      var outcome := Authenticate(p, Secret(ctx), ctx.now, Some("Bearer " + token));
      && outcome.Authorized?
      && MeResponse(users, outcome.payload) == Response(200, Profile(View(users[k])))
  {
    BearerTokenAuthenticates(p, Secret(ctx), issuedAt, users[k].id, users[k].email, ctx.now);
    var payload := Claims(issuedAt, users[k].id, users[k].email);
    assert CallerId(payload) == Some(users[k].id);
    var r := FindById(users, CallerId(payload));
    assert users[k] in users;
    var u := r.value;
    var i :| 0 <= i < |users| && users[i] == u;
    if i < k { assert users[i].id != users[k].id; } else if i > k { assert users[k].id != users[i].id; }
  }

  /** The todo `GET` handler for an authenticated payload: exactly the
      caller's rows, newest first. */
  function ListResponse(todos: seq<Todo>, payload: PhpValue): (res: Response)
    ensures res == Response(200, Fatal) <==> !Bindable(payload)
    ensures Bindable(payload) ==> var owner := CallerId(payload);
      && res.status == 200 && res.body.TodoList?
      && NewestFirst(res.body.rows)
      && multiset(res.body.rows) == multiset(Owned(todos, owner))
      && forall t :: t in res.body.rows <==> t in todos && OwnedBy(t, owner)
  {
    if !Bindable(payload) then Response(200, Fatal)
    else Response(200, TodoList(Listing(todos, CallerId(payload))))
  }

  /** The `INSERT INTO vue_todos` succeeds: the generated id is new, a `NULL`
      owner is accepted only by the PostgreSQL table (the MySQL column is `NOT
      NULL`), and an owner must be a registered user (the foreign key). */
  predicate Insertable(users: seq<User>, todos: seq<Todo>, ctx: Context, owner: Option<string>) {
    && ctx.freshId !in TodoIds(todos)
    && (owner.None? ==> Production(ctx))
    && (owner.Some? ==> owner.value in UserIds(users))
  }

  /** The `register` handler's answer and its effect on `users` (`before` the
      request, `after` it): the credentials check, the duplicate-email probe,
      `password_hash` (which throws on an array), the `INSERT` and the
      re-selected row with its token. */
  predicate RegisterSpec(p: Primitives, ctx: Context, before: seq<User>, after: seq<User>,
                         body: map<string, PhpValue>, res: Response)
    requires AssocDecoded(body)
  {
    var email := Input(body, "email"); var password := Input(body, "password");
    var name := Input(body, "name"); var e := BodyString(email);
    && (Empty(email) || Empty(password) ==>
          res == Response(400, Error(NeedCredentials)) && after == before)
    && (!Empty(email) && !Empty(password) && (exists u :: u in before && u.email == e) ==>
          res == Response(400, Error(EmailInUse)) && after == before)
    && (!Empty(email) && !Empty(password) && (forall u :: u in before ==> u.email != e) ==>
          && (password.Arr? ==> res == Response(200, Fatal) && after == before)
          && (!password.Arr? && ctx.freshId in UserIds(before) ==>
                res == Response(500, Error(DbError)) && after == before)
          && (!password.Arr? && ctx.freshId !in UserIds(before) ==>
                var u := User(ctx.freshId, e, p.passwordHash(BodyString(password), ctx.salt), BodyString(name));
                && after == before + [u]
                && res == Response(200, Session(View(u), GenerateJWT(p, Secret(ctx), ctx.now, u.id, u.email)))))
  }

  /** The todo `POST` handler's answer and its effect on the todo rows for an
      authenticated `payload`: the text check, then the owner bound by
      reference, the `INSERT` and the caller's newest row re-selected. */
  predicate CreateTodoSpec(ctx: Context, users: seq<User>, before: seq<Todo>, after: seq<Todo>,
                           payload: PhpValue, body: map<string, PhpValue>, res: Response)
    requires AssocDecoded(body)
  {
    var text := Input(body, "text"); var owner := CallerId(payload);
    && (Empty(text) ==> res == Response(400, Error(NeedText)) && after == before)
    && (!Empty(text) && !Bindable(payload) ==> res == Response(200, Fatal) && after == before)
    && (!Empty(text) && Bindable(payload) && !Insertable(users, before, ctx, owner) ==>
          res == Response(500, Error(DbError)) && after == before)
    && (!Empty(text) && Bindable(payload) && Insertable(users, before, ctx, owner) ==>
          var t := Todo(ctx.freshId, owner, BodyString(text), false, ctx.dbNow);
          && after == before + [t]
          && res.status == 200
          && (owner.None? ==> res.body == NoItem)
          && (owner.Some? ==>
                && res.body.TodoItem? && res.body.row in after && OwnedBy(res.body.row, owner)
                && (forall r :: r in after && OwnedBy(r, owner) ==> r.createdAt <= res.body.row.createdAt)
                && ((forall r :: r in before && r.userId == owner ==> r.createdAt < ctx.dbNow) ==>
                      res.body == TodoItem(t))))
  }

  /** The todo `PUT` handler's answer and effect: the id and `completed`
      checks, then the owner bound by reference, the ownership probe and the
      `UPDATE` of exactly the probed row's flag. */
  predicate UpdateTodoSpec(before: seq<Todo>, after: seq<Todo>, payload: PhpValue,
                           body: map<string, PhpValue>, res: Response)
    requires AssocDecoded(body)
  {
    var id := Input(body, "id"); var completed := Field(body, "completed"); var owner := CallerId(payload);
    && (Empty(id) ==> res == Response(400, Error(NeedId)) && after == before)
    && (!Empty(id) && !Isset(completed) ==> res == Response(400, Error(NeedCompleted)) && after == before)
    && (!Empty(id) && Isset(completed) && !Bindable(payload) ==> res == Response(200, Fatal) && after == before)
    && (!Empty(id) && Isset(completed) && Bindable(payload) && !HasTarget(before, BodyString(id), owner) ==>
          res == Response(404, Error(NoSuchTodo)) && after == before)
    && (!Empty(id) && Isset(completed) && Bindable(payload) && HasTarget(before, BodyString(id), owner) ==>
          && res == Response(200, Succeeded)
          && exists k :: 0 <= k < |before| && Targets(before[k], BodyString(id), owner)
                         && after == before[k := before[k].(completed := Truthy(completed.value))])
  }

  /** The todo `DELETE` handler's answer and effect: the id check, then the
      owner bound by reference, the ownership probe and the `DELETE` of
      exactly the probed row; the others keep their order. */
  predicate DeleteTodoSpec(before: seq<Todo>, after: seq<Todo>, payload: PhpValue,
                           body: map<string, PhpValue>, res: Response)
    requires AssocDecoded(body)
  {
    var id := Input(body, "id"); var owner := CallerId(payload);
    && (Empty(id) ==> res == Response(400, Error(NeedId)) && after == before)
    && (!Empty(id) && !Bindable(payload) ==> res == Response(200, Fatal) && after == before)
    && (!Empty(id) && Bindable(payload) && !HasTarget(before, BodyString(id), owner) ==>
          res == Response(404, Error(NoSuchTodo)) && after == before)
    && (!Empty(id) && Bindable(payload) && HasTarget(before, BodyString(id), owner) ==>
          && res == Response(200, Succeeded)
          && exists k :: 0 <= k < |before| && Targets(before[k], BodyString(id), owner)
                         && after == before[..k] + before[k + 1..])
  }

  /** A successful registration is followed by a successful login with the
      same body: the login finds the new row, the password verifies against
      the hash stored for it, and the answer carries the same user. */
  lemma RegisterThenLogin(p: Primitives, ctx: Context, later: Context, before: seq<User>,
                          after: seq<User>, body: map<string, PhpValue>, res: Response)
    requires Lawful(p) && AssocDecoded(body) && UniqueUsers(before)
    requires RegisterSpec(p, ctx, before, after, body, res) && res.body.Session?
    ensures LoginResponse(p, later, after, body)
              == Response(200, Session(res.body.user,
                                       GenerateJWT(p, Secret(later), later.now, res.body.user.id, res.body.user.email)))
  {
    var email := Input(body, "email"); var password := Input(body, "password");
    var name := Input(body, "name"); var e := BodyString(email);
    var u := User(ctx.freshId, e, p.passwordHash(BodyString(password), ctx.salt), BodyString(name));
    assert after == before + [u] && res.body.user == View(u);
    AppendUser(before, [], u);
    FindByEmailUnique(after, |after| - 1);
  }

  /** A todo the `POST` handler inserts for a caller appears in that
      caller's listing afterwards. */
  lemma CreatedTodoIsListed(ctx: Context, users: seq<User>, before: seq<Todo>, after: seq<Todo>,
                            payload: PhpValue, body: map<string, PhpValue>, res: Response)
    requires AssocDecoded(body) && CreateTodoSpec(ctx, users, before, after, payload, body, res)
    requires Bindable(payload) && CallerId(payload).Some? && res.status == 200
    ensures Todo(ctx.freshId, CallerId(payload), BodyString(Input(body, "text")), false, ctx.dbNow)
              in ListResponse(after, payload).body.rows
  {
  }

  /** The `INSERT` succeeds exactly when the new row keeps the table
      constraints (a fresh primary key and, for an owner, the foreign key to
      `users`) and, for a `NULL` owner, the dialect is PostgreSQL. */
  lemma InsertableKeepsConstraints(users: seq<User>, todos: seq<Todo>, ctx: Context, owner: Option<string>,
                                   text: string, at: int)
    requires UniqueTodoIds(todos) && OwnersRegistered(todos, users)
    ensures var rows := todos + [Todo(ctx.freshId, owner, text, false, at)];
      Insertable(users, todos, ctx, owner) <==>
        UniqueTodoIds(rows) && OwnersRegistered(rows, users) && (owner.None? ==> Production(ctx))
  {
    var t := Todo(ctx.freshId, owner, text, false, at);
    var rows := todos + [t];
    assert rows[|todos|] == t;
    if ctx.freshId in TodoIds(todos) {
      var old_row :| old_row in todos && old_row.id == ctx.freshId;
      var i :| 0 <= i < |todos| && todos[i] == old_row;
      assert rows[i].id == rows[|todos|].id;
    } else {
      assert UniqueTodoIds(rows) by {
        forall i, j | 0 <= i < j < |rows| ensures rows[i].id != rows[j].id {
          if j == |todos| {
            assert rows[i] in todos;
          }
        }
      }
    }
  }

  lemma AppendUser(users: seq<User>, todos: seq<Todo>, u: User)
    requires UniqueUsers(users) && OwnersRegistered(todos, users)
    requires u.id !in UserIds(users) && forall v :: v in users ==> v.email != u.email
    ensures UniqueUsers(users + [u]) && OwnersRegistered(todos, users + [u])
  {
  }

  lemma UpdateKeepsInvariant(todos: seq<Todo>, users: seq<User>, k: nat, completed: bool)
    requires UniqueTodoIds(todos) && OwnersRegistered(todos, users) && k < |todos|
    ensures var todos' := todos[k := todos[k].(completed := completed)];
      UniqueTodoIds(todos') && OwnersRegistered(todos', users)
  {
  }

  class Database {
    var users: seq<User>
    var todos: seq<Todo>

    /** The table constraints: unique user ids and emails, unique todo ids,
        and every non-`NULL` todo owner a registered user. */
    ghost predicate Valid()
      reads this
    {
      UniqueUsers(users) && UniqueTodoIds(todos) && OwnersRegistered(todos, users)
    }

    /** Both tables exist and hold no row: a fresh installation after its
        start-up block has run. */
    constructor ()
      ensures users == [] && todos == [] && Valid()
    {
      users := [];
      todos := [];
    }

    /** The `register` handler. The new row takes the generated id, the
        email, the hash of the password and the name; the answer carries the
        row re-selected by email and a token for it. */
    method Register(p: Primitives, ctx: Context, body: map<string, PhpValue>) returns (res: Response)
      requires Valid() && AssocDecoded(body)
      modifies this
      ensures Valid()
      ensures todos == old(todos)
      ensures RegisterSpec(p, ctx, old(users), users, body, res)
    {
      var email := Input(body, "email");
      var password := Input(body, "password");
      var name := Input(body, "name");
      if Empty(email) || Empty(password) {
        return Response(400, Error(NeedCredentials));
      }
      var e := BodyString(email);
      if FindByEmail(users, e).Some? {
        return Response(400, Error(EmailInUse));
      }
      if password.Arr? {
        return Response(200, Fatal);
      }
      var hashed := p.passwordHash(BodyString(password), ctx.salt);
      if ctx.freshId in UserIds(users) {
        return Response(500, Error(DbError));
      }
      var u := User(ctx.freshId, e, hashed, BodyString(name));
      AppendUser(users, todos, u);
      users := users + [u];
      FindByEmailUnique(users, |users| - 1);
      var found := FindByEmail(users, e).value;
      var token := GenerateJWT(p, Secret(ctx), ctx.now, found.id, found.email);
      res := Response(200, Session(View(found), token));
    }

    /** The todo `POST` handler for an authenticated `payload`: one row with
        the generated id, the caller as owner, the text, `completed` false and
        the database clock as `created_at`; the answer is the caller's newest
        row re-selected afterwards. */
    method CreateTodo(ctx: Context, payload: PhpValue, body: map<string, PhpValue>) returns (res: Response)
      requires Valid() && AssocDecoded(body)
      modifies this
      ensures Valid()
      ensures users == old(users)
      ensures CreateTodoSpec(ctx, old(users), old(todos), todos, payload, body, res)
    {
      var text := Input(body, "text");
      if Empty(text) {
        return Response(400, Error(NeedText));
      }
      if !Bindable(payload) {
        return Response(200, Fatal);
      }
      var owner := CallerId(payload);
      if !Insertable(users, todos, ctx, owner) {
        return Response(500, Error(DbError));
      }
      var t := Todo(ctx.freshId, owner, BodyString(text), false, ctx.dbNow);
      ghost var before := todos;
      todos := todos + [t];
      assert t in todos;
      assert OwnersRegistered(todos, users);
      assert UniqueTodoIds(todos) by {
        forall i, j | 0 <= i < j < |todos| ensures todos[i].id != todos[j].id {
          if j == |before| {
            assert todos[i] in before;
          }
        }
      }
      match Newest(todos, owner)
      case None =>
        res := Response(200, NoItem);
      case Some(row) =>
        res := Response(200, TodoItem(row));
        if owner.Some? && forall r :: r in before && r.userId == owner ==> r.createdAt < ctx.dbNow {
          NewestIsInserted(before, t);
        }
    }

    /** The todo `PUT` handler for an authenticated `payload`: exactly the
        probed row changes, and only its flag. */
    method UpdateTodo(payload: PhpValue, body: map<string, PhpValue>) returns (res: Response)
      requires Valid() && AssocDecoded(body)
      modifies this
      ensures Valid()
      ensures users == old(users)
      ensures UpdateTodoSpec(old(todos), todos, payload, body, res)
    {
      var id := Input(body, "id");
      var completed := Field(body, "completed");
      if Empty(id) {
        return Response(400, Error(NeedId));
      }
      if !Isset(completed) {
        return Response(400, Error(NeedCompleted));
      }
      if !Bindable(payload) {
        return Response(200, Fatal);
      }
      var owner := CallerId(payload);
      var key := BodyString(id);
      var flag := Truthy(completed.value);
      if !HasTarget(todos, key, owner) {
        return Response(404, Error(NoSuchTodo));
      }
      var target :| target in todos && Targets(target, key, owner);
      var k :| 0 <= k < |todos| && todos[k] == target;
      SetCompletedOneRow(todos, k, owner, flag);
      UpdateKeepsInvariant(todos, users, k, flag);
      todos := SetCompleted(todos, key, owner, flag);
      res := Response(200, Succeeded);
    }

    /** The todo `DELETE` handler for an authenticated `payload`: exactly the
        probed row goes; the others keep their order. */
    method DeleteTodo(payload: PhpValue, body: map<string, PhpValue>) returns (res: Response)
      requires Valid() && AssocDecoded(body)
      modifies this
      ensures Valid()
      ensures users == old(users)
      ensures DeleteTodoSpec(old(todos), todos, payload, body, res)
    {
      var id := Input(body, "id");
      if Empty(id) {
        return Response(400, Error(NeedId));
      }
      if !Bindable(payload) {
        return Response(200, Fatal);
      }
      var owner := CallerId(payload);
      var key := BodyString(id);
      if !HasTarget(todos, key, owner) {
        return Response(404, Error(NoSuchTodo));
      }
      var target :| target in todos && Targets(target, key, owner);
      var k :| 0 <= k < |todos| && todos[k] == target;
      RemoveTargetsOneRow(todos, k, owner);
      todos := RemoveTargets(todos, key, owner);
      res := Response(200, Succeeded);
    }

    /** One request through the whole script: `OPTIONS` is answered first;
        then the route decides; the endpoints that need a user authenticate
        before they look at the body, so a request without a valid token is
        answered 401 whatever its body holds. */
    method Handle(p: Primitives, ctx: Context, req: Request) returns (res: Response)
      requires Valid() && AssocDecoded(req.body)
      modifies this
      ensures Valid()
      ensures var route := Routing.RouteRequest(req.verb, req.uri);
        var outcome := Authenticate(p, Secret(ctx), ctx.now, req.authorization);
        && (route.Preflight? ==> res == Response(200, NoBody) && unchanged(this))
        && (route.MethodNotAllowed? ==> res == Response(405, Error(BadMethod)) && unchanged(this))
        && (route.NoSuchEndpoint? ==> res == Response(404, Error(UnknownEndpoint)) && unchanged(this))
        && (route.Login? ==> res == LoginResponse(p, ctx, users, req.body) && unchanged(this))
        && (route.Register? ==> RegisterSpec(p, ctx, old(users), users, req.body, res) && todos == old(todos))
        && ((route.Me? || route.ListTodos? || route.CreateTodo? || route.UpdateTodo? || route.DeleteTodo?) ==>
              (!outcome.Authorized? ==> res == Denied(outcome) && unchanged(this)))
        && (route.Me? && outcome.Authorized? ==> res == MeResponse(users, outcome.payload) && unchanged(this))
        && (route.ListTodos? && outcome.Authorized? ==>
              res == ListResponse(todos, outcome.payload) && unchanged(this))
        && ((route.CreateTodo? || route.UpdateTodo? || route.DeleteTodo?) ==> users == old(users))
        && (route.CreateTodo? && outcome.Authorized? ==>
              CreateTodoSpec(ctx, old(users), old(todos), todos, outcome.payload, req.body, res))
        && (route.UpdateTodo? && outcome.Authorized? ==>
              UpdateTodoSpec(old(todos), todos, outcome.payload, req.body, res))
        && (route.DeleteTodo? && outcome.Authorized? ==>
              DeleteTodoSpec(old(todos), todos, outcome.payload, req.body, res))
    {
      var route := Routing.RouteRequest(req.verb, req.uri);
      if route.Preflight? {
        res := Response(200, NoBody);
      } else if route.MethodNotAllowed? {
        res := Response(405, Error(BadMethod));
      } else if route.NoSuchEndpoint? {
        res := Response(404, Error(UnknownEndpoint));
      } else if route.Register? {
        res := Register(p, ctx, req.body);
      } else if route.Login? {
        res := LoginResponse(p, ctx, users, req.body);
      } else {
        var outcome := Authenticate(p, Secret(ctx), ctx.now, req.authorization);
        if !outcome.Authorized? {
          res := Denied(outcome);
        } else if route.Me? {
          res := MeResponse(users, outcome.payload);
        } else if route.ListTodos? {
          res := ListResponse(todos, outcome.payload);
        } else if route.CreateTodo? {
          res := CreateTodo(ctx, outcome.payload, req.body);
        } else if route.UpdateTodo? {
          res := UpdateTodo(outcome.payload, req.body);
        } else {
          res := DeleteTodo(outcome.payload, req.body);
        }
      }
    }
  }
}

=== FILE: tables.dfy ===
/**
  The rows of the `users` and `vue_todos` tables and the meaning of the SQL
  statements the handlers run against them, as functions on sequences of
  rows: selection by owner, `ORDER BY created_at DESC`, `LIMIT 1`, the
  ownership probe, `UPDATE … WHERE id AND user_id` and `DELETE … WHERE id
  AND user_id`.
 */
module Tables {
  import opened Php

  datatype User = User(id: string, email: string, passwordHash: string, name: string)

  /** `SELECT id, email, name`: a user without the password hash. */
  datatype UserView = UserView(id: string, email: string, name: string)

  function View(u: User): UserView {
    UserView(u.id, u.email, u.name)
  }

  /** A todo row; `userId` is `None` for SQL `NULL`. */
  datatype Todo = Todo(id: string, userId: Option<string>, text: string, completed: bool, createdAt: int)

  function UserIds(users: seq<User>): set<string> {
    set u | u in users :: u.id
  }

  function TodoIds(rows: seq<Todo>): set<string> {
    set t | t in rows :: t.id
  }

  /** The primary key of `users` and the `UNIQUE` email. */
  predicate UniqueUsers(users: seq<User>) {
    forall i, j :: 0 <= i < j < |users| ==> users[i].id != users[j].id && users[i].email != users[j].email
  }

  /** The primary key of `vue_todos`. */
  predicate UniqueTodoIds(rows: seq<Todo>) {
    forall i, j :: 0 <= i < j < |rows| ==> rows[i].id != rows[j].id
  }

  /** The foreign key `user_id REFERENCES users(id)`; `NULL` is exempt. */
  predicate OwnersRegistered(rows: seq<Todo>, users: seq<User>) {
    forall t :: t in rows && t.userId.Some? ==> t.userId.value in UserIds(users)
  }

  /** `SELECT … FROM users WHERE email = :email` followed by `fetch()`: the
      first matching row. */
  function FindByEmail(users: seq<User>, email: string): (r: Option<User>)
    ensures r.Some? ==> r.value in users && r.value.email == email
    ensures r.None? <==> forall u :: u in users ==> u.email != email
  {
    if users == [] then None
    else if users[0].email == email then Some(users[0])
    else FindByEmail(users[1..], email)
  }

  /** `SELECT … FROM users WHERE id = :id` followed by `fetch()`; a `NULL`
      parameter matches nothing. */
  function FindById(users: seq<User>, id: Option<string>): (r: Option<User>)
    ensures r.Some? ==> r.value in users && Some(r.value.id) == id
    ensures r.None? <==> forall u :: u in users ==> Some(u.id) != id
  {
    if users == [] then None
    else if Some(users[0].id) == id then Some(users[0])
    else FindById(users[1..], id)
  }

  /** With unique emails, the row found for an email is the only one with
      that email, wherever it sits. */
  lemma FindByEmailUnique(users: seq<User>, k: nat)
    requires UniqueUsers(users) && k < |users|
    ensures FindByEmail(users, users[k].email) == Some(users[k])
  {
  }

  /** SQL's `user_id = :owner`: never true for a `NULL` parameter. */
  predicate OwnedBy(t: Todo, owner: Option<string>) {
    owner.Some? && t.userId == owner
  }

  /** `WHERE user_id = :user_id`, in table order. */
  function Owned(rows: seq<Todo>, owner: Option<string>): (r: seq<Todo>)
    ensures forall t :: t in r <==> t in rows && OwnedBy(t, owner)
    ensures forall t :: multiset(r)[t] == if OwnedBy(t, owner) then multiset(rows)[t] else 0
  {
    if rows == [] then []
    else
      assert rows == [rows[0]] + rows[1..];
      if OwnedBy(rows[0], owner) then [rows[0]] + Owned(rows[1..], owner)
      else Owned(rows[1..], owner)
  }

  predicate NewestFirst(s: seq<Todo>) {
    forall i, j :: 0 <= i < j < |s| ==> s[i].createdAt >= s[j].createdAt
  }

  function InsertByDate(t: Todo, s: seq<Todo>): (r: seq<Todo>)
    requires NewestFirst(s)
    ensures forall x :: x in r <==> x == t || x in s
    ensures NewestFirst(r)
    ensures multiset(r) == multiset(s) + multiset{t}
  {
    if s == [] || s[0].createdAt <= t.createdAt then [t] + s
    else
      var rest := InsertByDate(t, s[1..]);
      assert forall i :: 0 <= i < |rest| ==> rest[i].createdAt <= s[0].createdAt by {
        forall i | 0 <= i < |rest| ensures rest[i].createdAt <= s[0].createdAt {
          assert rest[i] in rest;
          if rest[i] != t {
            var j :| 0 <= j < |s[1..]| && s[1..][j] == rest[i];
            assert s[j + 1] == rest[i];
          }
        }
      }
      assert s == [s[0]] + s[1..];
      [s[0]] + rest
  }

  /** `ORDER BY created_at DESC`: a permutation of the rows, newest first.
      Rows with equal `created_at` come in an order SQL leaves open; this
      function fixes one. */
  function SortNewestFirst(s: seq<Todo>): (r: seq<Todo>)
    ensures NewestFirst(r)
    ensures multiset(r) == multiset(s)
  {
    if s == [] then [] else
      assert s == [s[0]] + s[1..];
      InsertByDate(s[0], SortNewestFirst(s[1..]))
  }

  /** `SELECT * FROM vue_todos WHERE user_id = :user_id ORDER BY created_at
      DESC`: exactly the owner's rows, each as often as in the table, newest
      first. */
  function Listing(rows: seq<Todo>, owner: Option<string>): (r: seq<Todo>)
    ensures NewestFirst(r)
    ensures multiset(r) == multiset(Owned(rows, owner))
    ensures forall t :: t in r <==> t in rows && OwnedBy(t, owner)
  {
    var r := SortNewestFirst(Owned(rows, owner));
    assert forall t :: t in r <==> t in multiset(Owned(rows, owner));
    r
  }

  /** The same query with `LIMIT 1`, then `fetch()`: an owned row no other
      owned row is newer than, or nothing when the owner has no row. */
  function Newest(rows: seq<Todo>, owner: Option<string>): (r: Option<Todo>)
    ensures r.None? <==> forall t :: t in rows ==> !OwnedBy(t, owner)
    ensures r.Some? ==> r.value in rows && OwnedBy(r.value, owner)
    ensures r.Some? ==> forall t :: t in rows && OwnedBy(t, owner) ==> t.createdAt <= r.value.createdAt
  {
    var l := Listing(rows, owner);
    if l == [] then None
    else
      assert forall t :: t in rows && OwnedBy(t, owner) ==> t.createdAt <= l[0].createdAt by {
        forall t | t in rows && OwnedBy(t, owner) ensures t.createdAt <= l[0].createdAt {
          var j :| 0 <= j < |l| && l[j] == t;
        }
      }
      Some(l[0])
  }

  /** Re-selecting the newest row after an insert returns the inserted row when
      its `created_at` is later than that of every earlier row of the same
      owner; with an equal timestamp another row of the owner may come back
      instead. */
  lemma NewestIsInserted(rows: seq<Todo>, t: Todo)
    requires t.userId.Some?
    requires forall u :: u in rows && u.userId == t.userId ==> u.createdAt < t.createdAt
    ensures Newest(rows + [t], t.userId) == Some(t)
  {
    var r := Newest(rows + [t], t.userId);
    assert t in rows + [t];
    assert r.value.createdAt >= t.createdAt;
  }

  /** The probe `SELECT * FROM vue_todos WHERE id = :id AND user_id = :user_id`
      finds a row. */
  predicate Targets(t: Todo, id: string, owner: Option<string>) {
    t.id == id && OwnedBy(t, owner)
  }

  predicate HasTarget(rows: seq<Todo>, id: string, owner: Option<string>) {
    exists t :: t in rows && Targets(t, id, owner)
  }

  /** `UPDATE vue_todos SET completed = :completed WHERE id = :id AND user_id
      = :user_id`: the targeted rows get the new flag, every other row and
      every other column stays as it was, and no row moves. */
  function SetCompleted(rows: seq<Todo>, id: string, owner: Option<string>, completed: bool): (r: seq<Todo>)
    ensures |r| == |rows|
    ensures forall i :: 0 <= i < |rows| ==>
              r[i] == (if Targets(rows[i], id, owner) then rows[i].(completed := completed) else rows[i])
  {
    if rows == [] then []
    else
      var head := if Targets(rows[0], id, owner) then rows[0].(completed := completed) else rows[0];
      [head] + SetCompleted(rows[1..], id, owner, completed)
  }

  /** `DELETE FROM vue_todos WHERE id = :id AND user_id = :user_id`: the
      targeted rows go, the others stay in their order, and distinct ids stay
      distinct. */
  function RemoveTargets(rows: seq<Todo>, id: string, owner: Option<string>): (r: seq<Todo>)
    ensures forall t :: t in r <==> t in rows && !Targets(t, id, owner)
    ensures |r| <= |rows|
    ensures UniqueTodoIds(rows) ==> UniqueTodoIds(r)
  {
    if rows == [] then []
    else
      var rest := RemoveTargets(rows[1..], id, owner);
      if Targets(rows[0], id, owner) then rest
      else
        assert UniqueTodoIds(rows) ==> UniqueTodoIds([rows[0]] + rest) by {
          if UniqueTodoIds(rows) {
            assert UniqueTodoIds(rows[1..]) by {
              forall i, j | 0 <= i < j < |rows| - 1 ensures rows[1..][i].id != rows[1..][j].id {
                assert rows[1..][i] == rows[i + 1] && rows[1..][j] == rows[j + 1];
              }
            }
            forall j | 0 <= j < |rest| ensures rows[0].id != rest[j].id {
              assert rest[j] in rows[1..];
              var k :| 0 <= k < |rows[1..]| && rows[1..][k] == rest[j];
              assert rows[k + 1] == rest[j];
            }
          }
        }
        [rows[0]] + rest
  }

  /** With unique ids, `UPDATE` changes exactly the one targeted row, and in
      it only the `completed` column. */
  lemma SetCompletedOneRow(rows: seq<Todo>, k: nat, owner: Option<string>, completed: bool)
    requires UniqueTodoIds(rows) && k < |rows| && OwnedBy(rows[k], owner)
    ensures SetCompleted(rows, rows[k].id, owner, completed) == rows[k := rows[k].(completed := completed)]
  {
  }

  /** With unique ids, `DELETE` removes exactly the one targeted row and keeps
      the others in order. */
  lemma {:induction false} RemoveTargetsOneRow(rows: seq<Todo>, k: nat, owner: Option<string>)
    requires UniqueTodoIds(rows) && k < |rows| && OwnedBy(rows[k], owner)
    ensures RemoveTargets(rows, rows[k].id, owner) == rows[..k] + rows[k + 1..]
    decreases k
  {
    var id := rows[k].id;
    var tail := rows[1..];
    assert UniqueTodoIds(tail) by {
      forall i, j | 0 <= i < j < |tail| ensures tail[i].id != tail[j].id {
        assert tail[i] == rows[i + 1] && tail[j] == rows[j + 1];
      }
    }
    if k == 0 {
      assert RemoveTargets(rows, id, owner) == RemoveTargets(tail, id, owner);
      RemoveNothing(tail, id, owner);
    } else {
      assert rows[0].id != id;
      assert tail[k - 1] == rows[k];
      RemoveTargetsOneRow(tail, k - 1, owner);
      assert rows[..k] + rows[k + 1..] == [rows[0]] + (tail[..k - 1] + tail[k..]);
    }
  }

  lemma {:induction false} RemoveNothing(rows: seq<Todo>, id: string, owner: Option<string>)
    requires forall t :: t in rows ==> t.id != id
    ensures RemoveTargets(rows, id, owner) == rows
    decreases |rows|
  {
    if rows != [] {
      RemoveNothing(rows[1..], id, owner);
    }
  }

  /** Owner scoping: with unique ids, a row that belongs to someone else is
      invisible to the probe, so updating or deleting it by id answers "not
      found" and changes nothing; and no one's listing holds another owner's
      row. */
  lemma ForeignRowIsInvisible(rows: seq<Todo>, k: nat, caller: string)
    requires UniqueTodoIds(rows) && k < |rows| && rows[k].userId != Some(caller)
    ensures !HasTarget(rows, rows[k].id, Some(caller))
    ensures rows[k] !in Listing(rows, Some(caller))
  {
  }
}
